=== FILE: README.md ===
# PDF Toolkit: the five tasks and the queue that reports them

PDF Toolkit is a desktop program with five tabs. Each tab starts one
background task on a PDF:

- search pages for text and keep the pages that match;
- stamp page numbers;
- merge several PDFs;
- extract a range of pages;
- convert the text to an ODT document.

A task does not touch the window. It posts messages to a queue:
`("progress", tab, percent, current, total)`, `("log", tab, text)`,
`("done", None)` or `("error", text)`. The UI thread drains that queue
into the tab's bar, counter and log, and into the status bar. A "stop" button sets a
flag that the task checks before each unit of work (a page, a file or a
line).

This project models that core in Dafny:

- **`unique_filename`.** The name a task writes to: the path itself, or
  `base_k.ext` for the least free `k` (module `Paths`, over POSIX
  `basename`, `splitext` and `join`).
- **The page-range parser** of the extract task (module `Ranges`, over a
  model of Python's `str.strip`, `str.split` and `int()` in module `Text`).
- **Each task as a pure function.** It maps its inputs to the list of queue
  messages it posts and the file it writes (modules `Search`, `Number`,
  `Merge`, `Extract`, `Convert`). What the PDF library would do is an input:
  - the pages of the document, each one readable or raising;
  - the files of a merge, each one inserted or raising;
  - the text the extractor returns, or its exception;
  - whether saving raises.

  The stop flag is an input too. It is set once and never cleared, so a run
  is fully described by the first unit before which the flag is seen
  (`Events.Stop`).
- **The shared loop discipline** (module `Events`). Check the flag, do the
  unit, post its progress. The loop ends in one of three ways:
  - it runs out of units;
  - it sees the flag, which posts a "stopped" line and `done`;
  - a unit raises, which posts one `error`.

  The tails shared by the tasks live in module `Runs`: save and report,
  raise, conclude.
- **The UI side** (module `Consumer`):
  - `_process_queue` as a fold of messages over the window state;
  - the launchers, which disable the buttons, clear the tab's log and reset
    the global bar;
  - `_stop_worker`.

Every task run is proved to end with exactly one `done` or `error`, as its
last message. The fold is proved to return the window to idle on that
message.

## Model

| member | source | states |
|---|---|---|
| Paths.UniqueFilename | df_toolkit_moderno.py:107-114 | The loop returns a path that does not exist, and it is the same path as the declarative `Paths.Unique`. |
| Paths.Unique | df_toolkit_moderno.py:107-114 | The result never exists. A free path is kept as it is. A taken path becomes `base_k.ext` for the least k >= 1 that is free. |
| Paths.FirstFree | df_toolkit_moderno.py:111-114 | Counting up from a k whose predecessors are all taken reaches the least free counter. |
| Paths.CandidateInjective | df_toolkit_moderno.py:113 | Different counters give different names, so the counter search terminates. |
| Paths.UniqueSkipsTakenNames | df_toolkit_moderno.py:107-114 | With `a.pdf` and `a_1.pdf` taken the result is `a_2.pdf`. |
| Paths.BasenameOfJoin | df_toolkit_moderno.py:866-867 | Joining the result folder and a name keeps the name as the base name. |
| Paths.LastDotSplits | df_toolkit_moderno.py:866 | `os.path.splitext` cuts at the last dot of the last component exactly when some character other than a dot precedes that dot in the component. Otherwise there is no extension. |
| Runs.OutputFor | df_toolkit_moderno.py:866-867 | The output path never exists. |
| Runs.OutputNamed | df_toolkit_moderno.py:866-867 | When the plain name is free in the result folder, the output's base name is the input's stem followed by the task's suffix. |
| Text.Strip | df_toolkit_moderno.py:962 | Removes exactly the leading and trailing whitespace characters: no whitespace is left at either end, and the rest is a contiguous slice of the input. |
| Text.SplitJoin | df_toolkit_moderno.py:961 | Splitting on a separator inverts joining pieces that do not contain it. |
| Text.ParseIntRoundTrip | df_toolkit_moderno.py:968-976 | `int()` reads back the decimal form of every integer. |
| Text.SeparatorRejected | df_toolkit_moderno.py:968-976 | `int()` rejects any string that holds one of U+001C..U+001F, even at either end, where `strip()` would have removed it. |
| Text.SplitLinesRoundTrip | df_toolkit_moderno.py:1031 | `splitlines` inverts writing lines that contain no line break, one per newline. |
| Text.SplitFirstLine | df_toolkit_moderno.py:1031 | Text made of a line, a break (with `\r\n` counting as one break) and more text splits into that line followed by the lines of the rest. |
| Ranges.ParseRanges | df_toolkit_moderno.py:960-981 | The selection is strictly ascending. A page is in it iff it is inside the document and some comma-separated piece asks for it, either as `n` or as a range `a-b` with a <= n <= b. |
| Ranges.PiecesIndependent | df_toolkit_moderno.py:961-979 | The pages selected by `a,b` are the pages of `a` together with the pages of `b`. |
| Ranges.UnreadablePieceSkipped | df_toolkit_moderno.py:972-979 | A piece that asks for no page, such as one `int()` rejects, changes nothing in the selection. |
| Ranges.LettersAskForNothing | df_toolkit_moderno.py:975-979 | The piece `abc` asks for no page. |
| Ranges.ReversedRangeSelectsNothing | df_toolkit_moderno.py:970-971 | The range `5-2` selects nothing. |
| Ranges.EmptyExpressionSelectsNothing | df_toolkit_moderno.py:963-964 | An empty expression selects nothing. |
| Ranges.RangeTokenExact | df_toolkit_moderno.py:965-971 | The range `s-e` inside the document selects exactly pages s-1 .. e-1, in order. |
| Ranges.PageTokenSelects | df_toolkit_moderno.py:974-977 | The piece `n` selects exactly page n-1, when the document has it. |
| Ranges.NothingAskedIffEmpty | df_toolkit_moderno.py:981-982 | The selection is empty iff no page of the document is asked for. |
| Ranges.SelectionInBounds | df_toolkit_moderno.py:981 | Every selected page is inside the document. |
| Ranges.TwoRangesExample | df_toolkit_moderno.py:960-981 | `1-3,6-7` over ten pages selects the 0-based pages 0, 1, 2, 5, 6. |
| Ranges.LettersThenPageExample | df_toolkit_moderno.py:960-981 | `abc,2` over ten pages selects page 1 alone. |
| Ranges.SeparatorThenPageExample | df_toolkit_moderno.py:960-981 | `1\x1c-3,2` over ten pages selects page 1 alone: `int()` rejects the start `1\x1c`, so the range piece is skipped. |
| Events.LoopCompletes | df_toolkit_moderno.py:849-863 | When no unit raises and the flag is never seen, the loop finishes. It posts one progress message per unit, `low + (i+1)*width/n` for unit i, in order. |
| Events.LoopStopsAt | df_toolkit_moderno.py:850-854 | When the flag is first seen before unit k, the loop stops after exactly k progress messages. |
| Events.LoopFailsAt | df_toolkit_moderno.py:855-856 | When unit k raises, the loop fails with that message after exactly k progress messages. |
| Events.RampOrdered | df_toolkit_moderno.py:863 | The values of a full pass never go down, stay within the band, and the last one is the top of the band. |
| Events.LoopLines | df_toolkit_moderno.py:862 | The loop posts the log lines of the units it completes, in unit order. |
| Runs.Save | df_toolkit_moderno.py:908-913 | A save that raises ends the run with one `error` and writes nothing. Otherwise the file is written with the given content, then come the "generated" line, the trailer and `done`. |
| Runs.AfterLoopWellFormed | df_toolkit_moderno.py:841-878 | Every run ends with exactly one `done` or `error`, and that message is the last one. A run that writes a file ends with `done`. |
| Runs.ErrorOnlyFromEnding | df_toolkit_moderno.py:935-952 | When no unit can raise, a run that ends in `error` got it from its ending. |
| Search.Hits | df_toolkit_moderno.py:849-862 | The matching pages, strictly ascending: exactly the pages whose text matches. |
| Search.SearchSavesMatches | df_toolkit_moderno.py:865-873 | A search that runs to the end writes a file iff some page matched and saving works. The file holds exactly the matching pages, in document order. |
| Search.SearchCompletes | df_toolkit_moderno.py:849-863 | A search that runs to the end posts one progress value per page, 0..100 in order. |
| Search.SearchStops | df_toolkit_moderno.py:850-854 | Stopped before page k: k progress messages, then the stop line and `done`, and no file. |
| Search.SearchFindsNothing | df_toolkit_moderno.py:865-875 | A search that runs to the end with no matching page writes nothing. It closes with the "no matches" line and `done`, and that line is the last one logged. |
| Search.SearchLogsMatches | df_toolkit_moderno.py:841-875 | A search that runs to the end, with a working save, logs the opening line, then "match on page n" for each matching page in document order. It ends with the "generated" line, or the no-match line when nothing matched. |
| Search.SearchPageFails | df_toolkit_moderno.py:855-877 | A page that cannot be loaded ends the run with its exception, and no file is written. |
| Search.CaseInsensitiveMatch | df_toolkit_moderno.py:846-857 | Without case sensitivity, lower-casing the page changes nothing in the test. |
| Search.AllTermsAtPositions | df_toolkit_moderno.py:858-859 | In "all terms" mode a page matches iff every term occurs in it. |
| Search.AnyTermAtPositions | df_toolkit_moderno.py:858-859 | In "any term" mode a page matches iff some term occurs in it. |
| Search.AllTermsImpliesAnyTerm | df_toolkit_moderno.py:859 | With at least one term, a page that matches all terms also matches in "any term" mode. |
| Number.StampPage | df_toolkit_moderno.py:892-904 | A page gains one stamp iff its 1-based number is at least `page_start`. The text and the earlier stamps stay as they were. |
| Number.StampedIff | df_toolkit_moderno.py:892-899 | A page is changed iff i+1 >= page_start. |
| Number.StampContents | df_toolkit_moderno.py:892-904 | A stamped page gets one new stamp at the configured position. After the prefix, `int()` reads its text as the page's place counted from `start_num`: `start_num + (i+1 - page_start)` for page i. When labels are page numbers, it reads as the page's 1-based number. |
| Number.LabelsRiseByOne | df_toolkit_moderno.py:893-896 | Consecutive stamped pages get consecutive labels, in both numbering modes. |
| Number.LabelOffset | df_toolkit_moderno.py:893-894 | Counting from `start_num`, the page k places after `page_start` gets `start_num + k`. |
| Number.LabelReadsBack | df_toolkit_moderno.py:902 | After the prefix, the stamp text is a decimal numeral that `int()` reads back as the label. |
| Number.LabelTextInjective | df_toolkit_moderno.py:902 | Different labels give different stamp texts. |
| Number.NumberAlwaysSaves | df_toolkit_moderno.py:906-913 | A numbering run that reaches the end saves the numbered document, even when no page was stamped, unless saving raises. |
| Number.NumberReports | df_toolkit_moderno.py:885-905 | One progress value per page, 0..100 in order. |
| Number.NumberStops | df_toolkit_moderno.py:886-890 | Stopped before page k: k progress messages, then the stop line and `done`, and no file. |
| Number.NumberPageFails | df_toolkit_moderno.py:891-916 | A page that cannot be loaded ends the run with its exception. |
| Merge.Target | df_toolkit_moderno.py:782-794 | The launcher refuses an empty list or an empty name, after stripping whitespace. Otherwise the name is made unique: a relative name is first joined to the result folder, and an absolute one is used as it is. A free absolute name is kept unchanged. The name given to the task never exists. |
| Merge.OutputName | df_toolkit_moderno.py:921-925 | The task's output name always ends in `_unido.pdf`. |
| Merge.PdfExtensionReplaced | df_toolkit_moderno.py:921-925 | A name ending in `.pdf`, in any letter case, has those four characters replaced by `_unido.pdf`. This holds when some character other than a dot precedes the extension in the last path component, so `a..pdf` gives `a._unido.pdf`. |
| Merge.DotNameExtended | df_toolkit_moderno.py:921-925 | When only dots, or nothing, precede `.pdf` in the last component (`.pdf`, `dir/.pdf`, `..pdf`), `splitext` finds no extension. The whole name is kept and `_unido.pdf` is appended. |
| Merge.OtherNameExtended | df_toolkit_moderno.py:921-922 | Any other name is kept whole, and `_unido.pdf` is appended. |
| Merge.MergedConcat | df_toolkit_moderno.py:929-943 | The merged document of two lists is the first list's result followed by the second's. |
| Merge.RejectedFileAddsNothing | df_toolkit_moderno.py:935-942 | A file that cannot be opened or inserted adds no page. |
| Merge.MergedSize | df_toolkit_moderno.py:935-938 | The result has exactly as many pages as the files whose insertion succeeds hold together; a rejected file counts for nothing. |
| Merge.MergeCompletes | df_toolkit_moderno.py:928-944 | Without a stop, the merge posts one progress value per file, failures included, 0..100 in order. The result is saved unless saving raises. |
| Merge.MergeLogsEveryFile | df_toolkit_moderno.py:920-946 | The log holds, in order: the opening line, one line per file in list order ("added" or the reason it was skipped), then the "generated" line. |
| Merge.MergeStops | df_toolkit_moderno.py:930-934 | Stopped before file k: k progress messages, then the stop line and `done`, and no file. |
| Merge.MergeErrorOnlyFromSave | df_toolkit_moderno.py:940-952 | Only a failing save can end a merge with an error. |
| Extract.Copy | df_toolkit_moderno.py:982-1003 | An empty selection posts "no valid pages" and `done` and writes nothing. Any written file holds the selected pages, in selection order. |
| Extract.ExtractNothingSelected | df_toolkit_moderno.py:981-986 | When no page of the document is asked for, the run is the opening line, "no valid pages" and `done`. |
| Extract.ExtractCopies | df_toolkit_moderno.py:960-1003 | Every selected page is inside the document, and the run copies exactly the parser's selection. |
| Extract.CopyCompletes | df_toolkit_moderno.py:989-1001 | When every page copies and there is no stop, there is one progress value per selected page, 0..100 in order. The file is saved unless saving raises. |
| Extract.CopyLogsPages | df_toolkit_moderno.py:956-1003 | The log holds, in order: the opening line, "page p added" for each selected page in ascending order, then the "generated" line. |
| Extract.CopyStops | df_toolkit_moderno.py:990-994 | Stopped before the k-th selected page: k progress messages, then the stop line and `done`, and no file. |
| Extract.CopyPageFails | df_toolkit_moderno.py:995-1009 | A page that cannot be copied ends the run with its exception. |
| Convert.Hint | df_toolkit_moderno.py:1021-1028 | The page count shown first is the document's page count when that is positive. It is exactly 1 when the count is 0 or the library cannot open the file. |
| Convert.Convert | df_toolkit_moderno.py:1011-1066 | A failing extraction ends the run with one `error`. Any written document holds one paragraph per line of the extracted text. |
| Convert.LinePercents | df_toolkit_moderno.py:1047-1048 | The line messages stay within 10..90 and never go down. The last one is 90. |
| Convert.WriteCompletes | df_toolkit_moderno.py:1032-1056 | Without a stop or a failing save, the run posts 10, then one value per line, then 100, and writes the document. |
| Convert.WritePercentsOrdered | df_toolkit_moderno.py:1032-1056 | Those values never go down. |
| Convert.EmptyTextCannotBeStopped | df_toolkit_moderno.py:1037-1056 | Text without lines: the flag is never looked at. The run posts 10 then 100, and it saves an empty document unless saving raises. |
| Convert.WriteStops | df_toolkit_moderno.py:1038-1042 | Stopped before line k: the 10% message and k line messages, then the stop line and `done`, and no file. |
| Consumer.Launch | df_toolkit_moderno.py:737-836 | While a task runs, a click on a start button does nothing. A refused form adds the reason to the dialogs shown. Otherwise the buttons are disabled, the global bar goes to 0 and the status says "working". The tab's log is cleared. Its bar and counter, the dialogs and the other tabs stay as they were. |
| Consumer.RequestStop | df_toolkit_moderno.py:656-659 | While a task runs, the status says the task is stopping. Nothing else changes. |
| Consumer.ProgressEffect | df_toolkit_moderno.py:677-702 | A progress message sets its own tab's bar and counter only. The global bar becomes the floor average of the positive tab bars. |
| Consumer.StaleBarsCount | df_toolkit_moderno.py:693-700 | Bars of tabs that are not running still count: after a merge that reached 100, a search at 50% shows 75% globally. |
| Consumer.ZeroBarsKeepGlobal | df_toolkit_moderno.py:698-700 | With no positive bar, the global bar keeps its value. |
| Consumer.AverageWithin | df_toolkit_moderno.py:693-700 | With every bar in 0..100 the global bar stays in 0..100. It is at least 1 once some bar is positive. |
| Consumer.DrainKeepsGauged | df_toolkit_moderno.py:671-731 | Draining messages whose percentages are in 0..100 keeps every bar in 0..100. |
| Consumer.DrainAppendsLogs | df_toolkit_moderno.py:703-715 | Draining appends to each tab's log exactly the lines addressed to that tab, in order. |
| Consumer.LogMessageShown | df_toolkit_moderno.py:706-715 | One log message adds its text and a newline to its tab's widget. |
| Consumer.QuietKeepsBusy | df_toolkit_moderno.py:677-715 | Progress and log messages leave the buttons and the status as they were. |
| Consumer.RunEndsIdle | df_toolkit_moderno.py:716-729 | Draining a whole run leaves the window idle: buttons enabled, global bar 0, status "ready". An error run adds its message to the dialogs shown. |
| Consumer.SessionLog | df_toolkit_moderno.py:671-836 | Launching a task and draining its run leaves the window idle, with the tab's log holding exactly the run's log lines. |
| Consumer.BusyUntilLast | df_toolkit_moderno.py:716-729 | The buttons stay disabled until the run's last message is drained. |

## Left out

- **The window itself.** This covers the Tk/ttkbootstrap widgets, the
  menu, the file dialogs, the configuration file and `write_log`. They do
  not decide what a task posts or writes.
- **Threads and queue polling.** There is no `Worker` thread and no
  `root.after` polling. A task's messages are one list, drained in order; the
  task thread and the UI thread only share the queue and the flag.
- **The stop flag's timing** is an input (`Events.Stop`), not a clock.
- **`_stop_worker`'s extra log lines.** It posts five "stopped" lines, one
  to each tab, and `Consumer.RequestStop` does not model them. Those lines
  go through the same `Log` handling as any other.
- **Whether the worker thread is alive.** `_stop_worker` tests this;
  `Consumer.RequestStop` tests `busy` instead (a worker is set and not yet
  cleared by `done` or `error`).
- **`open_file_with_default_app` and the preview option.** They only open
  the result in another program.
- **The toast notification and the error dialog.** The toast on `done` is
  left out. The error dialog is recorded only as a message in
  `Ui.alerts`.
- **The PDF library** (fitz, pdfminer, odfpy). A page is its text plus the
  stamps written on it. The ODT is its list of paragraphs. Each exception
  the library may raise is an input. Where the program opens a document, the
  model starts from its pages.
- **Placeholder pages.** `Number.Numbered` and `Extract.Selected` are
  total. A page that does not load stands there as an empty page. A run
  that meets such a page raises before the save, so the placeholder is
  never written.
- **Stamp geometry.** A stamp records x and the distance from the bottom
  edge rather than `rect.height - y`. Font, size and colour are constants
  in the program and are left out.
- **Merge insertion is all or nothing.** A file either adds all of its
  pages or, if opening or inserting raises, none. A partial insertion
  before an exception is not modelled.
- **Percentages use exact integer division.** The program computes
  `int((i+1)/total*100)` in floating point, which can come out one lower
  than `(i+1)*100 // total`. For example, `29/100*100` is
  `28.999999999999996` in IEEE double arithmetic.
- **POSIX paths only.** `basename`, `splitext`, `join` and `isabs` follow
  `posixpath`, and a Windows drive or backslash is an ordinary character.
- **`lower()` folds ASCII letters only.** Non-ASCII case pairs are treated
  as distinct characters.
- **`int()` accepts** surrounding whitespace, one optional sign, and ASCII
  digits with single underscores between them. Non-ASCII digits are
  rejected. The information separators U+001C..U+001F are the exception to
  the whitespace rule: `str.strip()` removes them, but `int()` does not
  skip them, so a string holding one anywhere is rejected (`int("1\x1c")`
  raises). The model follows `int()` here.
- Number.FirstLabelIsStart, Number.LabelIsPageNumber, Number.LabelsRiseByOne and Number.LabelOffset: these restate the label arithmetic in the form the program documents. They hold by unfolding `Number.Label`.
- **Launcher form checks** (`os.path.isfile`, the empty-term and
  empty-range checks) are one input to `Consumer.Launch`: the refusal
  message or none. For the merge launcher, `Merge.Target` gives the
  refusal.

=== FILE: base.dfy ===
/** Small shared vocabulary: an optional value. */
module Base {

  /** The conventional Some/None datatype, used where the program returns
      a value or nothing (an unparsable integer, a missing page count). */
  datatype Option<+T> = None | Some(value: T)

  /** Concatenation regroups freely; stated once for any element type so
      that proofs about long event lists need not redo it. */
  lemma ConcatAssoc<T>(a: seq<T>, b: seq<T>, c: seq<T>)
    ensures (a + b) + c == a + (b + c)
  {
  }
}

=== FILE: consumer.dfy ===
/** `_process_queue`, the launchers and `_set_buttons_state`: the UI thread
    drains the queue the task thread fills. Each tab has a progress bar, a
    counter label and a log; the status bar has a global bar and a status
    text; while a task runs the start buttons are disabled. */
module Consumer {
  import opened Base
  import opened Text
  import opened Events

  /** What one tab shows: its bar, its counter label and the lines of its
      log widget, whose text is `LogText(log)`. */
  datatype Panel = Panel(bar: int, counter: string, log: seq<Message>)

  /** The five tabs' panels. */
  datatype Panels = Panels(search: Panel, number: Panel, merge: Panel, extract: Panel, convert: Panel)
  {
    function Get(t: Tab): Panel {
      match t
      case SearchTab => search
      case NumberTab => number
      case MergeTab => merge
      case ExtractTab => extract
      case ConvertTab => convert
    }

    function Set(t: Tab, p: Panel): (r: Panels)
      ensures r.Get(t) == p
      ensures forall u :: u != t ==> r.Get(u) == Get(u)
    {
      match t
      case SearchTab => this.(search := p)
      case NumberTab => this.(number := p)
      case MergeTab => this.(merge := p)
      case ExtractTab => this.(extract := p)
      case ConvertTab => this.(convert := p)
    }

    /** The bars in the order the average reads them. */
    function Bars(): seq<int> {
      [search.bar, number.bar, merge.bar, extract.bar, convert.bar]
    }
  }

  /** The whole window: the panels, the global bar, the status text,
      whether a task is running (start buttons disabled), and the error
      dialogs shown so far. */
  datatype Ui = Ui(panels: Panels, global: int, status: string, busy: bool, alerts: seq<string>)

  const Ready := "Listo ✅"
  const Working := "Procesando..."
  const Stopping := "🟥 Deteniendo proceso..."

  /** The counter label of a tab: "current / total" and the unit the tab
      counts. */
  function Counter(t: Tab, current: int, total: int): string {
    var unit := match t
      case MergeTab => " archivos"
      case ConvertTab => ""
      case _ => " páginas";
    IntToString(current) + " / " + IntToString(total) + unit
  }

  /** The window as it opens. */
  function Initial(): (ui: Ui)
    ensures !ui.busy && ui.global == 0 && ui.status == Ready
    ensures forall t :: ui.panels.Get(t) == Panel(0, Counter(t, 0, 0), [])
  {
    var p := (t: Tab) => Panel(0, Counter(t, 0, 0), []);
    Ui(Panels(p(SearchTab), p(NumberTab), p(MergeTab), p(ExtractTab), p(ConvertTab)), 0, Ready, false, [])
  }

  // ---------------------------------------------------------------------
  // The global bar
  // ---------------------------------------------------------------------

  /** The positive values of `s`, in order. */
  function Positives(s: seq<int>): (r: seq<int>)
    ensures forall i :: 0 <= i < |r| ==> r[i] > 0
    ensures |r| == 0 <==> forall i :: 0 <= i < |s| ==> s[i] <= 0
  {
    if |s| == 0 then []
    else (if s[0] > 0 then [s[0]] else []) + Positives(s[1..])
  }

  function Sum(s: seq<int>): int {
    if |s| == 0 then 0 else s[0] + Sum(s[1..])
  }

  /** The global bar after a progress message: the floor average of the
      positive tab bars, or unchanged when no bar is positive. */
  function Average(bars: seq<int>, global: int): int {
    var pos := Positives(bars);
    if |pos| > 0 then Sum(pos) / |pos| else global
  }

  /** Each value of `s` is in lo..hi. */
  predicate Within(s: seq<int>, lo: int, hi: int) {
    forall i :: 0 <= i < |s| ==> lo <= s[i] <= hi
  }

  lemma {:induction false} SumBounds(s: seq<int>, lo: int, hi: int)
    requires Within(s, lo, hi)
    ensures |s| * lo <= Sum(s) <= |s| * hi
    decreases |s|
  {
    if |s| > 0 {
      SumBounds(s[1..], lo, hi);
      assert |s| * lo == lo + (|s| - 1) * lo;
      assert |s| * hi == hi + (|s| - 1) * hi;
    }
  }

  lemma {:induction false} PositivesWithin(s: seq<int>, hi: int)
    requires Within(s, 0, hi)
    ensures Within(Positives(s), 1, hi)
    decreases |s|
  {
    if |s| > 0 {
      PositivesWithin(s[1..], hi);
      var head := if s[0] > 0 then [s[0]] else [];
      assert Positives(s) == head + Positives(s[1..]);
    }
  }

  /** The average of values in lo..hi is in lo..hi. */
  lemma MeanWithin(s: seq<int>, lo: int, hi: int)
    requires |s| > 0 && 0 <= lo && Within(s, lo, hi)
    ensures lo <= Sum(s) / |s| <= hi
  {
    var n := |s|;
    SumBounds(s, lo, hi);
    assert n * lo == lo * n && n * hi == hi * n;
    DivMonotone(n * lo, Sum(s), n);
    DivMonotone(Sum(s), n * hi, n);
    DivExact(n, lo);
    DivExact(n, hi);
  }

  /** With bars in 0..100 the global bar stays in 0..100, and it is at
      least 1 as soon as some bar is positive. */
  lemma AverageWithin(bars: seq<int>, global: int)
    requires Within(bars, 0, 100) && 0 <= global <= 100
    ensures 0 <= Average(bars, global) <= 100
    ensures (exists i :: 0 <= i < |bars| && bars[i] > 0) ==> Average(bars, global) >= 1
  {
    PositivesWithin(bars, 100);
    var pos := Positives(bars);
    if |pos| > 0 {
      MeanWithin(pos, 1, 100);
    }
  }

  // ---------------------------------------------------------------------
  // One message, and the queue
  // ---------------------------------------------------------------------

  /** `_set_buttons_state(False)`: buttons back to normal, global bar 0,
      status "ready". */
  function Idle(ui: Ui): (r: Ui)
    ensures !r.busy && r.global == 0 && r.status == Ready
    ensures r.panels == ui.panels && r.alerts == ui.alerts
  {
    ui.(busy := false, global := 0, status := Ready)
  }

  /** The UI thread handling one queue message. */
  function Apply(ui: Ui, e: Event): Ui {
    match e
    case Progress(t, v, current, total) =>
      var p := ui.panels.Get(t);
      var panels := ui.panels.Set(t, p.(bar := v, counter := Counter(t, current, total)));
      ui.(panels := panels, global := Average(panels.Bars(), ui.global))
    case Log(t, m) =>
      var p := ui.panels.Get(t);
      ui.(panels := ui.panels.Set(t, p.(log := p.log + [m])))
    case Done => Idle(ui)
    case Error(m) => Idle(ui.(alerts := ui.alerts + [m]))
  }

  /** Draining a list of messages, first to last. */
  function Drain(ui: Ui, events: seq<Event>): Ui
    decreases |events|
  {
    if |events| == 0 then ui else Drain(Apply(ui, events[0]), events[1..])
  }

  lemma {:induction false} DrainConcat(ui: Ui, a: seq<Event>, b: seq<Event>)
    ensures Drain(ui, a + b) == Drain(Drain(ui, a), b)
    decreases |a|
  {
    if |a| > 0 {
      assert (a + b)[0] == a[0];
      assert (a + b)[1..] == a[1..] + b;
      DrainConcat(Apply(ui, a[0]), a[1..], b);
    } else {
      assert a + b == b;
    }
  }

  // ---------------------------------------------------------------------
  // What each message does
  // ---------------------------------------------------------------------

  /** A progress message sets its tab's bar and counter, leaves the other
      tabs and every log alone, and sets the global bar to the average of
      the positive bars. */
  lemma ProgressEffect(ui: Ui, t: Tab, v: int, current: int, total: int)
    ensures var r := Apply(ui, Progress(t, v, current, total));
            && r.panels.Get(t).bar == v
            && r.panels.Get(t).counter == Counter(t, current, total)
            && r.panels.Get(t).log == ui.panels.Get(t).log
            && (forall u :: u != t ==> r.panels.Get(u) == ui.panels.Get(u))
            && r.global == Average(r.panels.Bars(), ui.global)
            && r.busy == ui.busy && r.status == ui.status
  {
  }

  /** The bars of tabs that are not running still count: after a merge
      that reached 100, a search at 50% shows 75% globally, not 50%. */
  lemma StaleBarsCount(ui: Ui)
    requires ui.panels.Bars() == [0, 0, 100, 0, 0]
    ensures Apply(ui, Progress(SearchTab, 50, 1, 2)).global == 75
  {
    var r := Apply(ui, Progress(SearchTab, 50, 1, 2));
    assert r.panels.Bars() == [50] + ui.panels.Bars()[1..];
    StaleAverage([50] + ui.panels.Bars()[1..], ui.global);
  }

  lemma StaleAverage(b: seq<int>, global: int)
    requires b == [50, 0, 100, 0, 0]
    ensures Average(b, global) == 75
  {
    assert Positives(b[3..]) == [];
    assert Positives(b[2..]) == [100] + Positives(b[3..]);
    assert Positives(b[1..]) == Positives(b[2..]);
    assert Positives(b) == [50] + Positives(b[1..]);
    var pos := [50, 100];
    assert Positives(b) == pos;
    assert Sum(pos) == 150;
  }

  /** A message with percent 0 on every bar leaves the global bar as it
      was. */
  lemma ZeroBarsKeepGlobal(ui: Ui, t: Tab, current: int, total: int)
    requires forall u :: u != t ==> ui.panels.Get(u).bar <= 0
    ensures Apply(ui, Progress(t, 0, current, total)).global == ui.global
  {
    var r := Apply(ui, Progress(t, 0, current, total));
    forall u | true
      ensures r.panels.Get(u).bar <= 0
    {
      ProgressEffect(ui, t, 0, current, total);
    }
    var b := r.panels.Bars();
    assert b == [r.panels.Get(SearchTab).bar, r.panels.Get(NumberTab).bar, r.panels.Get(MergeTab).bar,
                 r.panels.Get(ExtractTab).bar, r.panels.Get(ConvertTab).bar];
  }

  /** Bars and global bar in 0..100. */
  predicate Gauged(ui: Ui) {
    Within(ui.panels.Bars(), 0, 100) && 0 <= ui.global <= 100
  }

  /** Messages whose percentages are in 0..100 keep every bar in 0..100. */
  lemma ApplyKeepsGauged(ui: Ui, e: Event)
    requires Gauged(ui)
    requires e.Progress? ==> 0 <= e.percent <= 100
    ensures Gauged(Apply(ui, e))
  {
    if e.Progress? {
      var r := Apply(ui, e);
      var b := r.panels.Bars();
      assert forall t :: 0 <= r.panels.Get(t).bar <= 100 by {
        assert forall t :: 0 <= ui.panels.Get(t).bar <= 100 by {
          var a := ui.panels.Bars();
          assert forall t :: ui.panels.Get(t).bar in a;
        }
      }
      assert forall i :: 0 <= i < |b| ==> b[i] in {r.panels.Get(SearchTab).bar, r.panels.Get(NumberTab).bar,
        r.panels.Get(MergeTab).bar, r.panels.Get(ExtractTab).bar, r.panels.Get(ConvertTab).bar};
      AverageWithin(b, ui.global);
    }
  }

  lemma {:induction false} DrainKeepsGauged(ui: Ui, events: seq<Event>)
    requires Gauged(ui)
    requires forall i :: 0 <= i < |events| && events[i].Progress? ==> 0 <= events[i].percent <= 100
    ensures Gauged(Drain(ui, events))
    decreases |events|
  {
    if |events| > 0 {
      ApplyKeepsGauged(ui, events[0]);
      DrainKeepsGauged(Apply(ui, events[0]), events[1..]);
    }
  }

  // ---------------------------------------------------------------------
  // Logs
  // ---------------------------------------------------------------------

  /** The line a message adds to tab t's log. */
  function LogOf(t: Tab, e: Event): seq<Message> {
    if e.Log? && e.tab == t then [e.line] else []
  }

  /** A message adds to tab t's log exactly its line, when it is a log
      message addressed to t. */
  lemma ApplyAppendsLog(ui: Ui, e: Event, t: Tab)
    ensures Apply(ui, e).panels.Get(t).log == ui.panels.Get(t).log + LogOf(t, e)
  {
    if !(e.Log? && e.tab == t) {
      assert ui.panels.Get(t).log + [] == ui.panels.Get(t).log;
    }
  }

  /** The lines tab t's log gains from `events`. */
  function Transcript(t: Tab, events: seq<Event>): seq<Message> {
    if |events| == 0 then [] else LogOf(t, events[0]) + Transcript(t, events[1..])
  }

  /** The text of a log widget: each line followed by a newline. */
  function LogText(lines: seq<Message>): string {
    if |lines| == 0 then [] else Render(lines[0]) + "\n" + LogText(lines[1..])
  }

  /** Appending lines to the widget appends their text. */
  lemma {:induction false} LogTextConcat(a: seq<Message>, b: seq<Message>)
    ensures LogText(a + b) == LogText(a) + LogText(b)
    decreases |a|
  {
    if |a| > 0 {
      assert (a + b)[0] == a[0];
      assert (a + b)[1..] == a[1..] + b;
      LogTextConcat(a[1..], b);
    } else {
      assert a + b == b;
    }
  }

  /** So one log message adds its text and a newline to the widget. */
  lemma LogMessageShown(ui: Ui, t: Tab, m: Message)
    ensures LogText(Apply(ui, Log(t, m)).panels.Get(t).log) == LogText(ui.panels.Get(t).log) + Render(m) + "\n"
  {
    var log := ui.panels.Get(t).log;
    ApplyAppendsLog(ui, Log(t, m), t);
    assert LogOf(t, Log(t, m)) == [m];
    LogTextSnoc(log, m);
  }

  lemma LogTextSnoc(log: seq<Message>, m: Message)
    ensures LogText(log + [m]) == LogText(log) + Render(m) + "\n"
  {
    LogTextConcat(log, [m]);
    assert [m][1..] == [];
    assert LogText([m]) == Render(m) + "\n" + [];
    ConcatAssoc(LogText(log), Render(m), "\n");
  }

  /** Draining appends to each tab's log exactly that tab's lines, in
      order. */
  lemma {:induction false} DrainAppendsLogs(ui: Ui, events: seq<Event>, t: Tab)
    ensures Drain(ui, events).panels.Get(t).log == ui.panels.Get(t).log + Transcript(t, events)
    decreases |events|
  {
    if |events| == 0 {
      assert ui.panels.Get(t).log + [] == ui.panels.Get(t).log;
    } else {
      DrainStep(ui, events, t);
    }
  }

  lemma {:induction false} DrainStep(ui: Ui, events: seq<Event>, t: Tab)
    requires |events| > 0
    ensures Drain(ui, events).panels.Get(t).log == ui.panels.Get(t).log + Transcript(t, events)
    decreases |events|, 0
  {
    DrainAppendsLogs(Apply(ui, events[0]), events[1..], t);
    StepJoin(ui, events, t);
  }

  /** One step of the induction: the first message's line, then the rest. */
  lemma StepJoin(ui: Ui, events: seq<Event>, t: Tab)
    requires |events| > 0
    requires var next := Apply(ui, events[0]);
             Drain(next, events[1..]).panels.Get(t).log == next.panels.Get(t).log + Transcript(t, events[1..])
    ensures Drain(ui, events).panels.Get(t).log == ui.panels.Get(t).log + Transcript(t, events)
  {
    var next := Apply(ui, events[0]);
    ApplyAppendsLog(ui, events[0], t);
    assert Drain(ui, events).panels.Get(t).log == Drain(next, events[1..]).panels.Get(t).log;
    var a, b, c := ui.panels.Get(t).log, LogOf(t, events[0]), Transcript(t, events[1..]);
    assert Transcript(t, events) == b + c;
    ConcatAssoc(a, b, c);
  }

  /** Every log message of `events` is addressed to tab t. */
  predicate AllFor(t: Tab, events: seq<Event>) {
    forall i :: 0 <= i < |events| && events[i].Log? ==> events[i].tab == t
  }

  /** For a run that only logs to tab t, the tab's log gains the run's log
      lines, in order. */
  lemma {:induction false} TranscriptIsLines(t: Tab, events: seq<Event>)
    requires AllFor(t, events)
    ensures Transcript(t, events) == Lines(events)
    decreases |events|
  {
    if |events| > 0 {
      TranscriptIsLines(t, events[1..]);
      if events[0].Log? {
        assert Lines(events) == [events[0].line] + Lines(events[1..]);
        assert ([events[0].line] + Lines(events[1..]))[1..] == Lines(events[1..]);
      } else {
        assert Lines(events) == Lines(events[1..]);
      }
    }
  }

  // ---------------------------------------------------------------------
  // Busy and idle
  // ---------------------------------------------------------------------

  /** A message that does not end the run leaves the buttons and status
      as they were. */
  lemma {:induction false} QuietKeepsBusy(ui: Ui, events: seq<Event>)
    requires Quiet(events)
    ensures Drain(ui, events).busy == ui.busy && Drain(ui, events).status == ui.status
    decreases |events|
  {
    if |events| > 0 {
      assert !events[0].IsTerminal();
      DrainKeepsQuietTail(events);
      QuietKeepsBusy(Apply(ui, events[0]), events[1..]);
    }
  }

  lemma DrainKeepsQuietTail(events: seq<Event>)
    requires |events| > 0 && Quiet(events)
    ensures Quiet(events[1..])
  {
    assert forall i :: 0 <= i < |events| - 1 ==> events[1..][i] == events[i + 1];
  }

  /** Draining a whole run, which ends with exactly one `done` or `error`,
      leaves the window idle: buttons enabled, global bar 0, status
      "ready"; an error adds its message to the dialogs shown. */
  lemma RunEndsIdle(ui: Ui, events: seq<Event>)
    requires Terminated(events)
    ensures var r := Drain(ui, events);
            && !r.busy && r.global == 0 && r.status == Ready
            && r.alerts == ui.alerts + (if events[|events| - 1].Error? then [events[|events| - 1].message] else [])
  {
    var n := |events|;
    var init := events[..n - 1];
    assert events == init + [events[n - 1]];
    DrainConcat(ui, init, [events[n - 1]]);
    QuietAlertsUnchanged(ui, init);
    assert [events[n - 1]][1..] == [];
  }

  /** Messages that do not end the run show no dialog. */
  lemma {:induction false} QuietAlertsUnchanged(ui: Ui, events: seq<Event>)
    requires Quiet(events)
    ensures Drain(ui, events).alerts == ui.alerts
    decreases |events|
  {
    if |events| > 0 {
      assert !events[0].IsTerminal();
      DrainKeepsQuietTail(events);
      QuietAlertsUnchanged(Apply(ui, events[0]), events[1..]);
    }
  }

  // ---------------------------------------------------------------------
  // Launching and stopping
  // ---------------------------------------------------------------------

  /** A click on a start button. A disabled button (a task is running)
      does nothing; a launcher that rejects its form shows the reason;
      otherwise the tab's log is cleared, the global bar reset, the status
      set to "working" and the buttons disabled. The tab bars are not
      reset. */
  function Launch(ui: Ui, t: Tab, refusal: Option<string>): (r: Ui)
    ensures ui.busy ==> r == ui
    ensures !ui.busy && refusal.Some? ==> r == ui.(alerts := ui.alerts + [refusal.value])
    ensures !ui.busy && refusal.None? ==>
              && r.busy && r.global == 0 && r.status == Working
              && r.panels.Get(t).log == [] && r.panels.Get(t).bar == ui.panels.Get(t).bar
              && r.panels.Get(t).counter == ui.panels.Get(t).counter
              && r.alerts == ui.alerts
              && (forall u :: u != t ==> r.panels.Get(u) == ui.panels.Get(u))
  {
    if ui.busy then ui
    else match refusal
      case Some(m) => ui.(alerts := ui.alerts + [m])
      case None =>
        var p := ui.panels.Get(t);
        ui.(panels := ui.panels.Set(t, p.(log := [])), busy := true, global := 0, status := Working)
  }

  /** `_stop_worker`: while a task runs, the status says the task is
      stopping; the flag itself is the task's `stop` input. */
  function RequestStop(ui: Ui): (r: Ui)
    ensures r.panels == ui.panels && r.busy == ui.busy && r.global == ui.global
    ensures r.status == (if ui.busy then Stopping else ui.status)
  {
    if ui.busy then ui.(status := Stopping) else ui
  }

  /** A launched task's whole run, drained: the window ends idle and the
      tab's log holds exactly the run's log lines. */
  lemma SessionLog(ui: Ui, t: Tab, events: seq<Event>)
    requires !ui.busy && Terminated(events) && AllFor(t, events)
    ensures var r := Drain(Launch(ui, t, None), events);
            && !r.busy && r.status == Ready
            && r.panels.Get(t).log == Lines(events)
  {
    var start := Launch(ui, t, None);
    RunEndsIdle(start, events);
    DrainAppendsLogs(start, events, t);
    TranscriptIsLines(t, events);
  }

  /** While a launched run is being drained, before its last message, the
      buttons stay disabled. */
  lemma BusyUntilLast(ui: Ui, t: Tab, events: seq<Event>, k: nat)
    requires !ui.busy && Terminated(events) && k < |events|
    ensures Drain(Launch(ui, t, None), events[..k]).busy
  {
    var init := events[..|events| - 1];
    assert events[..k] == init[..k];
    assert Quiet(events[..k]) by {
      assert forall i :: 0 <= i < k ==> events[..k][i] == init[i];
    }
    QuietKeepsBusy(Launch(ui, t, None), events[..k]);
  }
}

=== FILE: convert.dfy ===
/** `_task_pdf_to_odt`: turn the text of a PDF into a text document with
    one paragraph per line. Progress runs 10 → 90 over the lines, then 100
    after the save. */
module Convert {
  import opened Base
  import opened Text
  import opened Paths
  import opened Events
  import opened Documents
  import opened Runs

  /** What the text extractor gives for the file: its text (an empty
      string when it finds none), or an exception. */
  datatype Extraction = Extracted(text: string) | ExtractionFails(message: string)

  /** The band the line loop reports in: 10 plus up to 80. */
  const LineBand := Band(10, 80)

  /** The page count shown with the first progress message: the document's
      page count but at least 1, or 1 when the PDF library cannot open the
      file (that failure is swallowed). */
  function Hint(pageCount: Option<nat>): (h: nat)
    ensures h >= 1
    ensures pageCount.Some? && pageCount.value >= 1 ==> h == pageCount.value
    ensures pageCount.None? || pageCount.value == 0 ==> h == 1
  {
    match pageCount
    case None => 1
    case Some(n) => if n >= 1 then n else 1
  }

  /** The denominator of the line loop: the number of lines, at least 1. */
  function LineTotal(lines: seq<string>): (t: nat)
    ensures t >= 1 && (|lines| > 0 ==> t == |lines|)
  {
    if |lines| >= 1 then |lines| else 1
  }

  /** One line of the loop: adding a paragraph does not raise and logs
      nothing. */
  function Units(lines: seq<string>): (r: seq<Unit>)
    ensures |r| == |lines|
    ensures forall i :: 0 <= i < |r| ==> r[i] == Worked([], [])
  {
    seq(|lines|, i requires 0 <= i < |lines| => Worked([], []))
  }

  function Opening(pdfPath: string): (r: seq<Event>)
    ensures Quiet(r) && Percents(r) == []
  {
    Note(ConvertTab, ConversionStarted(Basename(pdfPath)))
  }

  /** The opening line, then the 10% message once the text is extracted. */
  function Prefix(pdfPath: string, pageCount: Option<nat>): (r: seq<Event>)
    ensures Quiet(r) && Percents(r) == [10]
  {
    var first := Report(ConvertTab, 10, 1, Hint(pageCount));
    QuietConcat(Opening(pdfPath), first);
    PercentsConcat(Opening(pdfPath), first);
    Opening(pdfPath) + first
  }

  /** The result path: the input's stem with ".odt", made unique in the
      result folder. */
  function OutPath(env: Env, pdfPath: string): string {
    OutputFor(env, pdfPath, ".odt")
  }

  /** The message posted after the save. */
  function Full(lines: seq<string>): (r: seq<Event>)
    ensures Quiet(r) && Percents(r) == [100]
  {
    Report(ConvertTab, 100, LineTotal(lines), LineTotal(lines))
  }

  /** What follows a completed loop: save, the "generated" line, 100, and
      `done`. */
  function Ending(env: Env, pdfPath: string, lines: seq<string>): (r: Run)
    ensures WellFormed(r)
    ensures r.output.Some? <==> env.saveError.None?
    ensures r.output.Some? ==> r.output.value == Output(OutPath(env, pdfPath), Odt(lines))
    ensures env.saveError.None? ==> Percents(r.events) == [100]
  {
    Save(env, ConvertTab, OutPath(env, pdfPath), Odt(lines), Full(lines))
  }

  /** The run once the text is extracted. */
  function Write(env: Env, pdfPath: string, pageCount: Option<nat>, lines: seq<string>): (r: Run)
    ensures WellFormed(r)
    ensures r.output.Some? ==> r.output.value == Output(OutPath(env, pdfPath), Odt(lines))
  {
    var loop := Loop(ConvertTab, LineBand, Units(lines), env.stop, 0);
    var ending := Ending(env, pdfPath, lines);
    AfterLoopWellFormed(Prefix(pdfPath, pageCount), ConvertTab, loop, ending);
    AfterLoop(Prefix(pdfPath, pageCount), ConvertTab, loop, ending)
  }

  /** The whole task. */
  function Convert(env: Env, pdfPath: string, pageCount: Option<nat>, extraction: Extraction): (r: Run)
    ensures WellFormed(r)
    ensures r.output.Some? ==> extraction.Extracted? && r.output.value.path !in env.existing
    ensures r.output.Some? ==> r.output.value.artifact == Odt(SplitLines(extraction.text))
    ensures extraction.ExtractionFails? ==> r.events == Opening(pdfPath) + [Error(extraction.message)]
  {
    match extraction
    case ExtractionFails(m) => Raise(Opening(pdfPath), m)
    case Extracted(text) => Write(env, pdfPath, pageCount, SplitLines(text))
  }

  /** The lines report within 10..90, never going down, and the last one
      reports 90. */
  lemma LinePercents(n: nat)
    ensures NonDecreasing(Ramp(LineBand, n))
    ensures forall j :: 0 <= j < n ==> 10 <= Ramp(LineBand, n)[j] <= 90
    ensures n > 0 ==> Ramp(LineBand, n)[n - 1] == 90
  {
    RampOrdered(LineBand, n);
  }

  /** Not stopped and the save works: 10, then one value per line, then
      100, and the document is written. */
  lemma WriteCompletes(env: Env, pdfPath: string, pageCount: Option<nat>, lines: seq<string>)
    requires !env.stop.SeenAt(|lines| - 1) && env.saveError.None?
    ensures var r := Write(env, pdfPath, pageCount, lines);
            && Percents(r.events) == [10] + Ramp(LineBand, |lines|) + [100]
            && r.output.Some?
  {
    FinishedRun(Prefix(pdfPath, pageCount), ConvertTab, LineBand, Units(lines), env.stop, Ending(env, pdfPath, lines));
  }

  /** Not stopped: the document is saved unless saving raises. */
  lemma WriteFinishes(env: Env, pdfPath: string, pageCount: Option<nat>, lines: seq<string>)
    requires !env.stop.SeenAt(|lines| - 1)
    ensures Write(env, pdfPath, pageCount, lines).output.Some? <==> env.saveError.None?
  {
    FinishedRun(Prefix(pdfPath, pageCount), ConvertTab, LineBand, Units(lines), env.stop, Ending(env, pdfPath, lines));
  }

  /** ...and those values never go down. */
  lemma WritePercentsOrdered(env: Env, pdfPath: string, pageCount: Option<nat>, lines: seq<string>)
    requires !env.stop.SeenAt(|lines| - 1) && env.saveError.None?
    ensures NonDecreasing(Percents(Write(env, pdfPath, pageCount, lines).events))
  {
    WriteCompletes(env, pdfPath, pageCount, lines);
    LineRunOrdered(|lines|);
  }

  /** 10, the line values, 100: never going down. */
  lemma LineRunOrdered(n: nat)
    ensures NonDecreasing([10] + Ramp(LineBand, n) + [100])
  {
    LinePercents(n);
    BracketedOrdered(Ramp(LineBand, n), 10, 100);
  }

  /** A non-decreasing list whose values lie between lo and hi stays
      non-decreasing with lo before it and hi after it. */
  lemma BracketedOrdered(s: seq<int>, lo: int, hi: int)
    requires NonDecreasing(s)
    requires forall j :: 0 <= j < |s| ==> lo <= s[j] <= hi
    requires lo <= hi
    ensures NonDecreasing([lo] + s + [hi])
  {
    var t := [lo] + s + [hi];
    assert forall k :: 0 < k < |t| - 1 ==> t[k] == s[k - 1];
    assert t[0] == lo && t[|t| - 1] == hi;
    forall i, j | 0 <= i <= j < |t|
      ensures t[i] <= t[j]
    {
    }
  }

  lemma EmptyBracket(lo: int, s: seq<int>, hi: int)
    requires |s| == 0
    ensures [lo] + s + [hi] == [lo, hi]
  {
    assert s == [];
  }

  /** Text without lines: the loop never looks at the flag, so a stop
      request cannot cancel the conversion; 10, then 100, and the empty
      document is saved unless saving raises. */
  lemma EmptyTextCannotBeStopped(env: Env, pdfPath: string, pageCount: Option<nat>)
    ensures var r := Convert(env, pdfPath, pageCount, Extracted(""));
            && (r.output.Some? <==> env.saveError.None?)
            && (env.saveError.None? ==> Percents(r.events) == [10, 100])
  {
    NoLinesCannotBeStopped(env, pdfPath, pageCount, SplitLines(""));
  }

  lemma NoLinesCannotBeStopped(env: Env, pdfPath: string, pageCount: Option<nat>, lines: seq<string>)
    requires |lines| == 0
    ensures var r := Write(env, pdfPath, pageCount, lines);
            && (r.output.Some? <==> env.saveError.None?)
            && (env.saveError.None? ==> Percents(r.events) == [10, 100])
  {
    WriteFinishes(env, pdfPath, pageCount, lines);
    if env.saveError.None? {
      WriteCompletes(env, pdfPath, pageCount, lines);
      EmptyBracket(10, Ramp(LineBand, |lines|), 100);
    }
  }

  /** Stopped before line k: the 10% message and k line messages, the stop
      line and `done`, and no file. */
  lemma WriteStops(env: Env, pdfPath: string, pageCount: Option<nat>, lines: seq<string>, k: nat)
    requires env.stop == SetBefore(k) && k < |lines|
    ensures var r := Write(env, pdfPath, pageCount, lines);
            && r.output.None?
            && |Percents(r.events)| == k + 1
            && EndsStopped(r.events, ConvertTab)
  {
    var prefix, units, ending := Prefix(pdfPath, pageCount), Units(lines), Ending(env, pdfPath, lines);
    StoppedRun(prefix, ConvertTab, LineBand, units, k, ending);
  }
}

=== FILE: documents.dfy ===
/** The documents the tasks read and write, reduced to what the tasks look
    at: the text of each page, the stamps added to it, whether the PDF
    library could open a file or load a page, and the paragraphs of a
    text document. */
module Documents {

  /** Text drawn on a page at x points from the left and `fromBottom`
      points above the bottom edge. */
  datatype Stamp = Stamp(x: int, fromBottom: int, text: string)

  /** A page: the text `get_text("text")` extracts from it, and the stamps
      written on it so far. */
  datatype Page = Page(text: string, stamps: seq<Stamp>)

  /** A page of an input file: either the library loads it, or loading or
      copying it raises an exception with the given message. */
  datatype SourcePage = Readable(page: Page) | Unreadable(message: string)

  /** An input PDF: either `fitz.open` succeeds and gives its pages, or it
      raises. */
  datatype Source = Opened(pages: seq<SourcePage>) | Unopenable(message: string)

  /** A file a task writes: a PDF made of pages, or a text document made of
      one paragraph per line. */
  datatype Artifact = Pdf(pages: seq<Page>) | Odt(paragraphs: seq<string>)
}

=== FILE: events.dfy ===
/** The messages a task thread posts to the UI queue, and the loop the five
    tasks share: before each unit of work check the stop flag, do the unit,
    post its progress. A loop ends in one of three ways: it runs out of
    units, it sees the flag (a "stopped" log line and `done`), or a unit
    raises (one `error`). */
module Events {
  import opened Text

  /** The notebook tab a message is addressed to. */
  datatype Tab = SearchTab | NumberTab | MergeTab | ExtractTab | ConvertTab

  /** The log lines the tasks post, by what they say. */
  datatype Message =
    | SearchStarted(file: string)
    | PageMatched(page: int)
    | NoMatches
    | NumberingStarted(file: string)
    | MergeStarted(count: int, output: string)
    | FileAdded(file: string)
    | FileSkipped(file: string, reason: string)
    | ExtractStarted(file: string)
    | NoValidPages
    | PageAdded(page: int)
    | ConversionStarted(file: string)
    | Generated(path: string)
    | StoppedByUser

  /** The text of a log line, as the program formats it. */
  function Render(m: Message): string {
    match m
    case SearchStarted(f) => "Iniciando búsqueda en: " + f
    case PageMatched(p) => "Coincidencia en página " + IntToString(p)
    case NoMatches => "⚠️ No se encontraron coincidencias."
    case NumberingStarted(f) => "Numerando archivo: " + f
    case MergeStarted(n, o) => "Unión de " + IntToString(n) + " archivos en: " + o
    case FileAdded(f) => "Añadido: " + f
    case FileSkipped(f, e) => "⚠️ Error añadiendo " + f + ": " + e
    case ExtractStarted(f) => "Extrayendo páginas de: " + f
    case NoValidPages => "⚠️ No hay páginas válidas en la selección."
    case PageAdded(p) => "Página " + IntToString(p) + " añadida"
    case ConversionStarted(f) => "Iniciando conversión: " + f
    case Generated(path) => "✅ Archivo generado: " + path
    case StoppedByUser => "🟥 Proceso detenido por el usuario."
  }

  /** A queue message: ("progress", tab, value, current, total),
      ("log", tab, text), ("done", None) or ("error", text). */
  datatype Event =
    | Progress(tab: Tab, percent: int, current: int, total: int)
    | Log(tab: Tab, line: Message)
    | Done
    | Error(message: string)
  {
    /** `done` and `error` are the two messages that end a run. */
    predicate IsTerminal() {
      Done? || Error?
    }
  }

  /** No message of `events` ends the run. */
  predicate Quiet(events: seq<Event>) {
    forall i :: 0 <= i < |events| ==> !events[i].IsTerminal()
  }

  /** Exactly one message ends the run, and it is the last one. */
  predicate Terminated(events: seq<Event>) {
    |events| > 0 && events[|events| - 1].IsTerminal() && Quiet(events[..|events| - 1])
  }

  /** The values of the progress messages, in order. */
  function Percents(events: seq<Event>): seq<int> {
    if |events| == 0 then []
    else (if events[0].Progress? then [events[0].percent] else []) + Percents(events[1..])
  }

  lemma {:induction false} PercentsConcat(a: seq<Event>, b: seq<Event>)
    ensures Percents(a + b) == Percents(a) + Percents(b)
    decreases |a|
  {
    if |a| > 0 {
      var head := if a[0].Progress? then [a[0].percent] else [];
      assert (a + b)[0] == a[0];
      assert (a + b)[1..] == a[1..] + b;
      assert Percents(a + b) == head + Percents(a[1..] + b);
      PercentsConcat(a[1..], b);
      assert Percents(a) == head + Percents(a[1..]);
    } else {
      assert a + b == b;
    }
  }

  lemma QuietConcat(a: seq<Event>, b: seq<Event>)
    requires Quiet(a) && Quiet(b)
    ensures Quiet(a + b)
  {
    assert forall i :: |a| <= i < |a| + |b| ==> (a + b)[i] == b[i - |a|];
  }

  /** A quiet prefix followed by a terminated run is a terminated run. */
  lemma TerminatedAfterQuiet(a: seq<Event>, b: seq<Event>)
    requires Quiet(a) && Terminated(b)
    ensures Terminated(a + b)
    ensures (a + b)[|a + b| - 1] == b[|b| - 1]
  {
    var c := a + b;
    assert c[..|c| - 1] == a + b[..|b| - 1];
    QuietConcat(a, b[..|b| - 1]);
  }

  /** A single log message. */
  function Note(tab: Tab, line: Message): (r: seq<Event>)
    ensures r == [Log(tab, line)]
    ensures Quiet(r) && Percents(r) == []
  {
    var r := [Log(tab, line)];
    assert r[1..] == [];
    r
  }

  /** A single progress message. */
  function Report(tab: Tab, percent: int, current: int, total: int): (r: seq<Event>)
    ensures r == [Progress(tab, percent, current, total)]
    ensures Quiet(r) && Percents(r) == [percent]
  {
    var r := [Progress(tab, percent, current, total)];
    assert r[1..] == [];
    r
  }

  /** Log messages of one tab. */
  function Logs(tab: Tab, texts: seq<Message>): (r: seq<Event>)
    ensures |r| == |texts|
    ensures forall i :: 0 <= i < |r| ==> r[i] == Log(tab, texts[i])
  {
    seq(|texts|, i requires 0 <= i < |texts| => Log(tab, texts[i]))
  }

  lemma LogsCarryNoProgress(tab: Tab, texts: seq<Message>)
    ensures Percents(Logs(tab, texts)) == []
    ensures Quiet(Logs(tab, texts))
    decreases |texts|
  {
    if |texts| > 0 {
      assert Logs(tab, texts)[1..] == Logs(tab, texts[1..]);
      LogsCarryNoProgress(tab, texts[1..]);
    }
  }

  /** The log lines of `events`, in order. */
  function Lines(events: seq<Event>): seq<Message> {
    if |events| == 0 then []
    else (if events[0].Log? then [events[0].line] else []) + Lines(events[1..])
  }

  lemma {:induction false} LinesConcat(a: seq<Event>, b: seq<Event>)
    ensures Lines(a + b) == Lines(a) + Lines(b)
    decreases |a|
  {
    if |a| > 0 {
      var head := if a[0].Log? then [a[0].line] else [];
      assert (a + b)[0] == a[0];
      assert (a + b)[1..] == a[1..] + b;
      assert Lines(a + b) == head + Lines(a[1..] + b);
      LinesConcat(a[1..], b);
      assert Lines(a) == head + Lines(a[1..]);
    } else {
      assert a + b == b;
    }
  }

  /** Logging lines and reading them back gives the same lines. */
  lemma {:induction false} LinesOfLogs(tab: Tab, texts: seq<Message>)
    ensures Lines(Logs(tab, texts)) == texts
    decreases |texts|
  {
    if |texts| > 0 {
      assert Logs(tab, texts)[1..] == Logs(tab, texts[1..]);
      LinesOfLogs(tab, texts[1..]);
    }
  }

  // ---------------------------------------------------------------------
  // The stop flag
  // ---------------------------------------------------------------------

  /** The stop flag as the task sees it. `Worker.stop` sets the flag and
      nothing ever clears it, so once one check sees it every later check
      does too: a run is determined by the first unit before which it is
      seen, if any. */
  datatype Stop = NeverSet | SetBefore(unit: nat)
  {
    predicate SeenAt(i: int) {
      SetBefore? && unit <= i
    }
  }

  // ---------------------------------------------------------------------
  // Progress values
  // ---------------------------------------------------------------------

  /** The progress scale of a loop: unit i of n reports
      low + (i + 1) * width / n. Four tasks use 0..100; the conversion uses
      10..90. */
  datatype Band = Band(low: int, width: nat)

  const Whole: Band := Band(0, 100)

  function Percent(band: Band, i: int, n: int): int
    requires 0 <= i < n
  {
    band.low + (i + 1) * band.width / n
  }

  lemma MulSign(n: int, d: int)
    requires n > 0
    ensures d >= 1 ==> n * d >= n
    ensures d <= -1 ==> n * d <= -n
  {
  }

  lemma DivMonotone(a: int, b: int, n: int)
    requires 0 <= a <= b && n > 0
    ensures a / n <= b / n
  {
    var qa, qb := a / n, b / n;
    assert a == n * qa + a % n && b == n * qb + b % n;
    assert n * qa - n * qb == n * (qa - qb);
    MulSign(n, qa - qb);
  }

  lemma MulMonotone(a: int, b: int, w: nat)
    requires 0 <= a <= b
    ensures a * w <= b * w
  {
    assert b * w - a * w == (b - a) * w;
  }

  lemma DivExact(n: int, w: int)
    requires n > 0
    ensures n * w / n == w
  {
    var q, r := n * w / n, n * w % n;
    assert n * w == n * q + r;
    assert n * (w - q) == r;
    MulSign(n, w - q);
  }

  /** Later units never report less; all values stay within the band and
      the last unit reports its top. */
  lemma PercentOrdered(band: Band, i: int, j: int, n: int)
    requires 0 <= i <= j < n
    ensures band.low <= Percent(band, i, n) <= Percent(band, j, n) <= band.low + band.width
    ensures Percent(band, n - 1, n) == band.low + band.width
  {
    ScaledOrdered(i + 1, j + 1, n, band.width);
    DivExact(n, band.width);
  }

  /** Scaling 1 <= a <= b <= n by w / n keeps the order and stays in 0..w. */
  lemma ScaledOrdered(a: int, b: int, n: int, w: nat)
    requires 1 <= a <= b <= n
    ensures 0 <= a * w / n <= b * w / n <= w
  {
    MulMonotone(0, a, w);
    DivMonotone(0, a * w, n);
    MulMonotone(a, b, w);
    DivMonotone(a * w, b * w, n);
    MulMonotone(b, n, w);
    DivMonotone(b * w, n * w, n);
    DivExact(n, w);
  }

  /** The values units i..k-1 of n report, in order. */
  function PercentRun(band: Band, i: nat, k: nat, n: nat): (r: seq<int>)
    requires i <= k <= n
    ensures |r| == k - i
    ensures forall j :: 0 <= j < |r| ==> r[j] == Percent(band, i + j, n)
  {
    seq(k - i, j requires 0 <= j < k - i => Percent(band, i + j, n))
  }

  /** The values all n units of a full pass report, in order. */
  function Ramp(band: Band, n: nat): (r: seq<int>)
    ensures |r| == n
    ensures forall j :: 0 <= j < n ==> r[j] == Percent(band, j, n)
  {
    PercentRun(band, 0, n, n)
  }

  predicate NonDecreasing(s: seq<int>) {
    forall i, j :: 0 <= i <= j < |s| ==> s[i] <= s[j]
  }

  /** The values of one full pass are non-decreasing, stay within the band
      and end at its top. */
  lemma RampOrdered(band: Band, n: nat)
    ensures NonDecreasing(Ramp(band, n))
    ensures forall j :: 0 <= j < n ==> band.low <= Ramp(band, n)[j] <= band.low + band.width
    ensures n > 0 ==> Ramp(band, n)[n - 1] == band.low + band.width
  {
    var r := Ramp(band, n);
    forall i, j | 0 <= i <= j < n
      ensures band.low <= r[i] <= r[j] <= band.low + band.width
    {
      PercentOrdered(band, i, j, n);
    }
    if n > 0 {
      PercentOrdered(band, n - 1, n - 1, n);
    }
  }

  // ---------------------------------------------------------------------
  // The shared loop
  // ---------------------------------------------------------------------

  /** One unit of work (a page, a file, a line): either it completes,
      posting some log lines before and after its progress message, or it
      raises an exception with the given text. */
  datatype Unit = Worked(before: seq<Message>, after: seq<Message>) | Raised(message: string)

  /** How a loop left: all units done, the flag seen, or an exception. */
  datatype Outcome = Finished | Stopped | Failed(message: string)

  /** The messages a loop posted that do not end the run, and how it left. */
  datatype LoopEnd = LoopEnd(events: seq<Event>, outcome: Outcome)

  /** The messages that close a loop which did not finish: the stop line and
      `done`, or the one `error` the task's handler posts. */
  function Closing(tab: Tab, outcome: Outcome): (r: seq<Event>)
    requires !outcome.Finished?
    ensures Terminated(r)
    ensures outcome.Stopped? ==> r[|r| - 1] == Done && Percents(r) == []
    ensures outcome.Failed? ==> r == [Error(outcome.message)]
  {
    if outcome.Stopped? then
      var r := [Log(tab, StoppedByUser), Done];
      assert r[1..] == [Done] && [Done][1..] == [];
      r
    else [Error(outcome.message)]
  }

  /** The messages of one completed unit: its log lines around its progress
      message. */
  function StepEvents(tab: Tab, before: seq<Message>, progress: Event, after: seq<Message>): (r: seq<Event>)
    requires progress.Progress?
    ensures Quiet(r)
    ensures Percents(r) == [progress.percent]
  {
    var r := Logs(tab, before) + [progress] + Logs(tab, after);
    LogsCarryNoProgress(tab, before);
    LogsCarryNoProgress(tab, after);
    QuietConcat(Logs(tab, before), [progress]);
    QuietConcat(Logs(tab, before) + [progress], Logs(tab, after));
    assert [progress][1..] == [];
    PercentsConcat(Logs(tab, before), [progress]);
    PercentsConcat(Logs(tab, before) + [progress], Logs(tab, after));
    r
  }

  /** The loop from unit i on. */
  function Loop(tab: Tab, band: Band, units: seq<Unit>, stop: Stop, i: nat): (r: LoopEnd)
    requires i <= |units|
    ensures Quiet(r.events)
    decreases |units| - i
  {
    if i == |units| then LoopEnd([], Finished)
    else if stop.SeenAt(i) then LoopEnd([], Stopped)
    else match units[i]
      case Raised(m) => LoopEnd([], Failed(m))
      case Worked(before, after) =>
        var rest := Loop(tab, band, units, stop, i + 1);
        var step := StepEvents(tab, before, Progress(tab, Percent(band, i, |units|), i + 1, |units|), after);
        QuietConcat(step, rest.events);
        LoopEnd(step + rest.events, rest.outcome)
  }

  /** The unit at which a loop started at i leaves: the first one before
      which the flag is seen or that raises, or |units| if there is none. */
  function Exit(units: seq<Unit>, stop: Stop, i: nat): (k: nat)
    requires i <= |units|
    ensures i <= k <= |units|
    ensures forall j :: i <= j < k ==> !stop.SeenAt(j) && units[j].Worked?
    ensures k < |units| ==> stop.SeenAt(k) || units[k].Raised?
    decreases |units| - i
  {
    if i == |units| || stop.SeenAt(i) || units[i].Raised? then i else Exit(units, stop, i + 1)
  }

  /** A completed unit posts its messages ahead of the rest of the loop. */
  lemma LoopStep(tab: Tab, band: Band, units: seq<Unit>, stop: Stop, i: nat)
    requires i < |units| && !stop.SeenAt(i) && units[i].Worked?
    ensures var p := Progress(tab, Percent(band, i, |units|), i + 1, |units|);
            var rest := Loop(tab, band, units, stop, i + 1);
            Loop(tab, band, units, stop, i)
            == LoopEnd(StepEvents(tab, units[i].before, p, units[i].after) + rest.events, rest.outcome)
  {
  }

  lemma PercentRunStep(band: Band, i: nat, k: nat, n: nat)
    requires i < k <= n
    ensures PercentRun(band, i, k, n) == [Percent(band, i, n)] + PercentRun(band, i + 1, k, n)
  {
  }

  /** Exit is the first unit that stops the loop. */
  lemma {:induction false} ExitIs(units: seq<Unit>, stop: Stop, i: nat, k: nat)
    requires i <= k <= |units|
    requires forall j :: i <= j < k ==> !stop.SeenAt(j) && units[j].Worked?
    requires k == |units| || stop.SeenAt(k) || units[k].Raised?
    ensures Exit(units, stop, i) == k
    decreases k - i
  {
    if i < k {
      ExitIs(units, stop, i + 1, k);
    }
  }

  /** How the loop leaves at unit k. */
  function OutcomeAt(units: seq<Unit>, stop: Stop, k: nat): Outcome
    requires k <= |units|
  {
    if k == |units| then Finished
    else if stop.SeenAt(k) then Stopped
    else if units[k].Raised? then Failed(units[k].message)
    else Finished
  }

  /** The loop leaves at Exit: one progress message for each unit before
      it, with the band's value for that unit, and the outcome the exit
      unit decides. */
  lemma LoopReports(tab: Tab, band: Band, units: seq<Unit>, stop: Stop, i: nat)
    requires i <= |units|
    ensures Loop(tab, band, units, stop, i).outcome == OutcomeAt(units, stop, Exit(units, stop, i))
    ensures Percents(Loop(tab, band, units, stop, i).events) == PercentRun(band, i, Exit(units, stop, i), |units|)
  {
    LoopOutcome(tab, band, units, stop, i);
    LoopPercents(tab, band, units, stop, i);
  }

  lemma {:induction false} LoopOutcome(tab: Tab, band: Band, units: seq<Unit>, stop: Stop, i: nat)
    requires i <= |units|
    ensures Loop(tab, band, units, stop, i).outcome == OutcomeAt(units, stop, Exit(units, stop, i))
    decreases |units| - i
  {
    if i < |units| && !stop.SeenAt(i) && units[i].Worked? {
      var next := i + 1;
      LoopStep(tab, band, units, stop, i);
      LoopOutcome(tab, band, units, stop, next);
      assert Exit(units, stop, i) == Exit(units, stop, next);
    }
  }

  lemma {:induction false} LoopPercents(tab: Tab, band: Band, units: seq<Unit>, stop: Stop, i: nat)
    requires i <= |units|
    ensures Percents(Loop(tab, band, units, stop, i).events) == PercentRun(band, i, Exit(units, stop, i), |units|)
    decreases |units| - i
  {
    if i < |units| && !stop.SeenAt(i) && units[i].Worked? {
      var next := i + 1;
      var k := Exit(units, stop, i);
      assert k == Exit(units, stop, next);
      LoopPercents(tab, band, units, stop, next);
      PercentsStep(tab, band, units, stop, i, next, k);
    }
  }

  /** One completed unit adds its value in front of the rest's values. */
  lemma PercentsStep(tab: Tab, band: Band, units: seq<Unit>, stop: Stop, i: nat, next: nat, k: nat)
    requires i < |units| && !stop.SeenAt(i) && units[i].Worked?
    requires next == i + 1 && i < k <= |units|
    requires Percents(Loop(tab, band, units, stop, next).events) == PercentRun(band, next, k, |units|)
    ensures Percents(Loop(tab, band, units, stop, i).events) == PercentRun(band, i, k, |units|)
  {
    var p := Progress(tab, Percent(band, i, |units|), next, |units|);
    var step := StepEvents(tab, units[i].before, p, units[i].after);
    var rest := Loop(tab, band, units, stop, next);
    LoopStep(tab, band, units, stop, i);
    PercentsConcat(step, rest.events);
    PercentRunStep(band, i, k, |units|);
  }

  /** Cancellation: when the flag is first seen before unit k and no earlier
      unit raised, exactly k progress messages are posted and the loop
      leaves through the stop path. */
  lemma LoopStopsAt(tab: Tab, band: Band, units: seq<Unit>, k: nat)
    requires k < |units|
    requires forall j :: 0 <= j < k ==> units[j].Worked?
    ensures Loop(tab, band, units, SetBefore(k), 0).outcome == Stopped
    ensures |Percents(Loop(tab, band, units, SetBefore(k), 0).events)| == k
  {
    ExitIs(units, SetBefore(k), 0, k);
    LoopReports(tab, band, units, SetBefore(k), 0);
  }

  /** Completion: when no unit raises and the flag is not seen, every unit
      reports once, the values never go down, and the last one is the top
      of the band. */
  lemma LoopCompletes(tab: Tab, band: Band, units: seq<Unit>, stop: Stop)
    requires forall j :: 0 <= j < |units| ==> units[j].Worked?
    requires !stop.SeenAt(|units| - 1)
    ensures Loop(tab, band, units, stop, 0).outcome == Finished
    ensures Percents(Loop(tab, band, units, stop, 0).events) == Ramp(band, |units|)
    ensures NonDecreasing(Percents(Loop(tab, band, units, stop, 0).events))
    ensures |units| > 0 ==> Percents(Loop(tab, band, units, stop, 0).events)[|units| - 1] == band.low + band.width
  {
    ExitIs(units, stop, 0, |units|);
    LoopReports(tab, band, units, stop, 0);
    RampOrdered(band, |units|);
  }

  /** A unit that raises before the flag is seen ends the loop with that
      exception, after one progress message per earlier unit. */
  lemma LoopFailsAt(tab: Tab, band: Band, units: seq<Unit>, stop: Stop, k: nat)
    requires k < |units| && units[k].Raised?
    requires forall j :: 0 <= j < k ==> units[j].Worked?
    requires !stop.SeenAt(k)
    ensures Loop(tab, band, units, stop, 0).outcome == Failed(units[k].message)
    ensures |Percents(Loop(tab, band, units, stop, 0).events)| == k
  {
    ExitIs(units, stop, 0, k);
    LoopReports(tab, band, units, stop, 0);
  }

  /** Units that never raise can only leave through the stop path or by
      finishing. */
  lemma LoopOfWorkedUnits(tab: Tab, band: Band, units: seq<Unit>, stop: Stop)
    requires forall j :: 0 <= j < |units| ==> units[j].Worked?
    ensures !Loop(tab, band, units, stop, 0).outcome.Failed?
  {
    LoopReports(tab, band, units, stop, 0);
  }

  /** The log lines units i..k-1 post when they all complete, in order. */
  function UnitLines(units: seq<Unit>, i: nat, k: nat): seq<Message>
    requires i <= k <= |units|
    decreases k - i
  {
    if i == k then []
    else (if units[i].Worked? then units[i].before + units[i].after else []) + UnitLines(units, i + 1, k)
  }

  /** The unit completes and posts the one line m. */
  predicate PostsOne(u: Unit, m: Message) {
    u.Worked? && u.before + u.after == [m]
  }

  /** When every unit completes posting exactly one line, the units post
      those lines in order. */
  lemma {:induction false} UnitLinesMatch(units: seq<Unit>, lines: seq<Message>, i: nat)
    requires |units| == |lines| && i <= |units|
    requires forall j :: 0 <= j < |units| ==> PostsOne(units[j], lines[j])
    ensures UnitLines(units, i, |units|) == lines[i..]
    decreases |units| - i
  {
    if i < |units| {
      var next := i + 1;
      UnitLinesMatch(units, lines, next);
      UnitLinesStep(units, lines, i, next);
    } else {
      NoUnitLines(units, lines);
    }
  }

  lemma NoUnitLines(units: seq<Unit>, lines: seq<Message>)
    requires |units| == |lines|
    ensures UnitLines(units, |units|, |units|) == lines[|units|..]
  {
    assert lines[|units|..] == [];
  }

  lemma UnitLinesStep(units: seq<Unit>, lines: seq<Message>, i: nat, next: nat)
    requires i < |units| == |lines| && next == i + 1 && PostsOne(units[i], lines[i])
    requires UnitLines(units, next, |units|) == lines[next..]
    ensures UnitLines(units, i, |units|) == lines[i..]
  {
    assert lines[i..] == [lines[i]] + lines[next..];
  }

  /** A completed unit's log lines are its lines before and after its
      progress message. */
  lemma StepLines(tab: Tab, before: seq<Message>, progress: Event, after: seq<Message>)
    requires progress.Progress?
    ensures Lines(StepEvents(tab, before, progress, after)) == before + after
  {
    LinesOfLogs(tab, before);
    LinesOfLogs(tab, after);
    assert Lines([progress]) == [] by { assert [progress][1..] == []; }
    LinesConcat(Logs(tab, before), [progress]);
    LinesConcat(Logs(tab, before) + [progress], Logs(tab, after));
  }

  /** The loop posts the log lines of the units before its exit, unit by
      unit, and no others. */
  lemma {:induction false} LoopLines(tab: Tab, band: Band, units: seq<Unit>, stop: Stop, i: nat)
    requires i <= |units|
    ensures Lines(Loop(tab, band, units, stop, i).events) == UnitLines(units, i, Exit(units, stop, i))
    decreases |units| - i
  {
    if i < |units| && !stop.SeenAt(i) && units[i].Worked? {
      var p := Progress(tab, Percent(band, i, |units|), i + 1, |units|);
      var step := StepEvents(tab, units[i].before, p, units[i].after);
      var rest := Loop(tab, band, units, stop, i + 1);
      LoopStep(tab, band, units, stop, i);
      LoopLines(tab, band, units, stop, i + 1);
      LinesConcat(step, rest.events);
      StepLines(tab, units[i].before, p, units[i].after);
    }
  }

  /** When the loop completes it posts every unit's log lines. */
  lemma LoopLinesComplete(tab: Tab, band: Band, units: seq<Unit>, stop: Stop)
    requires forall j :: 0 <= j < |units| ==> units[j].Worked?
    requires !stop.SeenAt(|units| - 1)
    ensures Lines(Loop(tab, band, units, stop, 0).events) == UnitLines(units, 0, |units|)
  {
    ExitIs(units, stop, 0, |units|);
    LoopLines(tab, band, units, stop, 0);
  }
}

=== FILE: extract.dfy ===
/** `_task_extract_pages`: copy the pages a range expression selects into
    a new PDF, in ascending page order. */
module Extract {
  import opened Base
  import opened Paths
  import opened Ranges
  import opened Events
  import opened Documents
  import opened Runs

  /** The pages of the new document: the selected pages, in the order of
      the selection. A selected page that does not load stops the loop
      before the save; it stands here as an empty page, never written. */
  function Selected(pages: seq<SourcePage>, sel: seq<int>): (r: seq<Page>)
    requires forall j :: 0 <= j < |sel| ==> 0 <= sel[j] < |pages|
    ensures |r| == |sel|
    ensures forall j :: 0 <= j < |sel| && pages[sel[j]].Readable? ==> r[j] == pages[sel[j]].page
  {
    seq(|sel|, j requires 0 <= j < |sel| =>
      if pages[sel[j]].Readable? then pages[sel[j]].page else Page([], []))
  }

  /** One selected page: copying it may raise; the "added" line follows
      its progress message. */
  function PageUnit(page: SourcePage, p: int): (u: Unit)
    ensures u.Raised? <==> page.Unreadable?
  {
    match page
    case Unreadable(m) => Raised(m)
    case Readable(_) => Worked([], [PageAdded(p + 1)])
  }

  function Units(pages: seq<SourcePage>, sel: seq<int>): (r: seq<Unit>)
    requires forall j :: 0 <= j < |sel| ==> 0 <= sel[j] < |pages|
    ensures |r| == |sel|
    ensures forall j :: 0 <= j < |sel| ==> r[j] == PageUnit(pages[sel[j]], sel[j])
  {
    seq(|sel|, j requires 0 <= j < |sel| => PageUnit(pages[sel[j]], sel[j]))
  }

  function Opening(pdfPath: string): (r: seq<Event>)
    ensures Quiet(r) && Percents(r) == []
  {
    Note(ExtractTab, ExtractStarted(Basename(pdfPath)))
  }

  /** The result path: the input's stem with "_extraido.pdf", made unique
      in the result folder. */
  function OutPath(env: Env, pdfPath: string): string {
    OutputFor(env, pdfPath, "_extraido.pdf")
  }

  /** The run once the file is open and the selection is known. */
  function Copy(env: Env, pdfPath: string, pages: seq<SourcePage>, sel: seq<int>): (r: Run)
    requires forall j :: 0 <= j < |sel| ==> 0 <= sel[j] < |pages|
    ensures WellFormed(r)
    ensures sel == [] ==> r.events == Opening(pdfPath) + [Log(ExtractTab, NoValidPages), Done] && r.output.None?
    ensures r.output.Some? ==> sel != [] && r.output.value == Output(OutPath(env, pdfPath), Pdf(Selected(pages, sel)))
  {
    if sel == [] then Conclude(Opening(pdfPath), ExtractTab, NoValidPages)
    else
      var loop := Loop(ExtractTab, Whole, Units(pages, sel), env.stop, 0);
      var ending := Save(env, ExtractTab, OutPath(env, pdfPath), Pdf(Selected(pages, sel)), []);
      AfterLoopWellFormed(Opening(pdfPath), ExtractTab, loop, ending);
      AfterLoop(Opening(pdfPath), ExtractTab, loop, ending)
  }

  /** The whole task. */
  function Extract(env: Env, pdfPath: string, source: Source, expr: string): (r: Run)
    ensures WellFormed(r)
    ensures r.output.Some? ==> source.Opened? && r.output.value.path !in env.existing
    ensures source.Unopenable? ==> r.events == Opening(pdfPath) + [Error(source.message)]
  {
    match source
    case Unopenable(m) => Raise(Opening(pdfPath), m)
    case Opened(pages) =>
      SelectionInBounds(expr, |pages|);
      Copy(env, pdfPath, pages, ParseRanges(expr, |pages|))
  }

  /** Nothing valid selected: the "no valid pages" line and `done`, and no
      file, even before the stop flag is looked at. */
  lemma ExtractNothingSelected(env: Env, pdfPath: string, pages: seq<SourcePage>, expr: string)
    requires forall p :: 0 <= p < |pages| ==> !Asks(expr, p)
    ensures var r := Extract(env, pdfPath, Opened(pages), expr);
            r.events == Opening(pdfPath) + [Log(ExtractTab, NoValidPages), Done] && r.output.None?
  {
    NothingAskedIffEmpty(expr, |pages|);
  }

  /** Once a valid page is selected, the run is the copy of the selection. */
  lemma ExtractCopies(env: Env, pdfPath: string, pages: seq<SourcePage>, expr: string)
    ensures var sel := ParseRanges(expr, |pages|);
            && (forall j :: 0 <= j < |sel| ==> 0 <= sel[j] < |pages|)
            && Extract(env, pdfPath, Opened(pages), expr) == Copy(env, pdfPath, pages, sel)
  {
    SelectionInBounds(expr, |pages|);
  }

  /** Copying every selected page works and the flag is not seen: one
      progress message per selected page, 0..100 in order, and the
      selected pages saved in ascending order unless saving raises. */
  lemma CopyCompletes(env: Env, pdfPath: string, pages: seq<SourcePage>, sel: seq<int>)
    requires forall j :: 0 <= j < |sel| ==> 0 <= sel[j] < |pages| && pages[sel[j]].Readable?
    requires sel != [] && !env.stop.SeenAt(|sel| - 1)
    ensures var r := Copy(env, pdfPath, pages, sel);
            && Percents(r.events) == Ramp(Whole, |sel|)
            && (r.output.Some? <==> env.saveError.None?)
  {
    var ending := Save(env, ExtractTab, OutPath(env, pdfPath), Pdf(Selected(pages, sel)), []);
    FinishedRun(Opening(pdfPath), ExtractTab, Whole, Units(pages, sel), env.stop, ending);
  }

  /** The "added" lines a completed copy posts, one per selected page. */
  function AddedLines(sel: seq<int>): (r: seq<Message>)
    ensures |r| == |sel|
    ensures forall j :: 0 <= j < |sel| ==> r[j] == PageAdded(sel[j] + 1)
  {
    seq(|sel|, j requires 0 <= j < |sel| => PageAdded(sel[j] + 1))
  }

  /** The lines the units post are the "added" lines. */
  lemma UnitLinesAreAddedLines(pages: seq<SourcePage>, sel: seq<int>)
    requires forall j :: 0 <= j < |sel| ==> 0 <= sel[j] < |pages| && pages[sel[j]].Readable?
    ensures UnitLines(Units(pages, sel), 0, |sel|) == AddedLines(sel)
  {
    var units, lines := Units(pages, sel), AddedLines(sel);
    forall j | 0 <= j < |units|
      ensures PostsOne(units[j], lines[j])
    {
      assert units[j].before == [] && units[j].after == [lines[j]];
    }
    UnitLinesMatch(units, lines, 0);
  }

  /** A completed copy logs the opening line, one "added" line per
      selected page in ascending page order, then the "generated" line. */
  lemma CopyLogsPages(env: Env, pdfPath: string, pages: seq<SourcePage>, sel: seq<int>)
    requires forall j :: 0 <= j < |sel| ==> 0 <= sel[j] < |pages| && pages[sel[j]].Readable?
    requires sel != [] && !env.stop.SeenAt(|sel| - 1) && env.saveError.None?
    ensures Lines(Copy(env, pdfPath, pages, sel).events)
            == [ExtractStarted(Basename(pdfPath))] + AddedLines(sel) + [Generated(OutPath(env, pdfPath))]
  {
    var ending := Save(env, ExtractTab, OutPath(env, pdfPath), Pdf(Selected(pages, sel)), []);
    FinishedRunLines(Opening(pdfPath), ExtractTab, Whole, Units(pages, sel), env.stop, ending);
    UnitLinesAreAddedLines(pages, sel);
    SaveLines(env, ExtractTab, OutPath(env, pdfPath), Pdf(Selected(pages, sel)));
    assert Lines(Opening(pdfPath)) == [ExtractStarted(Basename(pdfPath))] by {
      assert Opening(pdfPath)[1..] == [];
    }
  }

  /** Stopped before the k-th selected page: k progress messages, the stop
      line and `done`, and no file. */
  lemma CopyStops(env: Env, pdfPath: string, pages: seq<SourcePage>, sel: seq<int>, k: nat)
    requires forall j :: 0 <= j < |sel| ==> 0 <= sel[j] < |pages|
    requires env.stop == SetBefore(k) && k < |sel|
    requires forall j :: 0 <= j < k ==> pages[sel[j]].Readable?
    ensures var r := Copy(env, pdfPath, pages, sel);
            && r.output.None?
            && |Percents(r.events)| == k
            && EndsStopped(r.events, ExtractTab)
  {
    var ending := Save(env, ExtractTab, OutPath(env, pdfPath), Pdf(Selected(pages, sel)), []);
    StoppedRun(Opening(pdfPath), ExtractTab, Whole, Units(pages, sel), k, ending);
  }

  /** A selected page that cannot be copied ends the run with its
      exception. */
  lemma CopyPageFails(env: Env, pdfPath: string, pages: seq<SourcePage>, sel: seq<int>, k: nat)
    requires forall j :: 0 <= j < |sel| ==> 0 <= sel[j] < |pages|
    requires k < |sel| && pages[sel[k]].Unreadable? && !env.stop.SeenAt(k)
    requires forall j :: 0 <= j < k ==> pages[sel[j]].Readable?
    ensures var r := Copy(env, pdfPath, pages, sel);
            && r.output.None?
            && |Percents(r.events)| == k
            && r.events[|r.events| - 1] == Error(pages[sel[k]].message)
  {
    var ending := Save(env, ExtractTab, OutPath(env, pdfPath), Pdf(Selected(pages, sel)), []);
    FailedRun(Opening(pdfPath), ExtractTab, Whole, Units(pages, sel), env.stop, k, ending);
  }
}

=== FILE: merge.dfy ===
/** `_start_merge` and `_task_merge_pdfs`: join the listed PDFs, in list
    order, into one new PDF. A file that cannot be added is reported and
    skipped; only saving the result can end the run with an error. */
module Merge {
  import opened Base
  import opened Text
  import opened Paths
  import opened Events
  import opened Documents
  import opened Runs

  /** What the PDF library does with one listed file: open it and insert
      all of its pages, or raise (opening or inserting) with a message. */
  datatype Insertion = Inserts(pages: seq<Page>) | Rejects(message: string)

  /** One entry of the file list. */
  datatype Input = Input(path: string, insertion: Insertion)

  // ---------------------------------------------------------------------
  // Naming the result
  // ---------------------------------------------------------------------

  /** `_start_merge`: the name handed to the task, or None when the
      launcher refuses to start (an empty list or an empty name). A
      relative name is placed in the result folder, and the name is made
      unique there. */
  function Target(env: Env, files: seq<Input>, entry: string): (r: Option<string>)
    ensures r.Some? <==> |files| > 0 && Strip(entry) != []
    ensures r.Some? ==> r.value !in env.existing
    ensures r.Some? && !IsAbs(Strip(entry)) ==> r.value == Unique(env.existing, PathJoin(env.resultFolder, Strip(entry)))
    ensures r.Some? && IsAbs(Strip(entry)) ==> r.value == Unique(env.existing, Strip(entry))
    ensures r.Some? && IsAbs(Strip(entry)) && Strip(entry) !in env.existing ==> r.value == Strip(entry)
  {
    var name := Strip(entry);
    if |files| == 0 || name == [] then None
    else Some(Unique(env.existing, if IsAbs(name) then name else PathJoin(env.resultFolder, name)))
  }

  /** The task's renaming: a name ending in ".pdf", in any case, loses its
      extension; then "_unido.pdf" is appended. */
  function OutputName(name: string): (r: string)
    ensures EndsWith(r, "_unido.pdf")
  {
    var r := if EndsWith(Lower(name), ".pdf") then SplitExt(name).0 + "_unido.pdf" else name + "_unido.pdf";
    assert r[|r| - 10..] == "_unido.pdf";
    r
  }

  /** A name with the ".pdf" extension (in any case) has those four
      characters replaced, as long as some character other than a dot
      precedes the extension in the last path component ("a..pdf" gives
      "a._unido.pdf"). */
  lemma PdfExtensionReplaced(name: string)
    requires |name| >= 4 && EndsWith(Lower(name), ".pdf")
    requires exists j :: LastIndexOf(name, '/') < j < |name| - 4 && name[j] != '.'
    ensures OutputName(name) == name[..|name| - 4] + "_unido.pdf"
  {
    PdfSuffix(name);
    LastDotSplits(name, |name| - 4);
  }

  /** When only dots (or nothing) precede ".pdf" in the last component
      (".pdf", "dir/.pdf", "..pdf"), os.path.splitext finds no extension,
      and the whole name is kept before "_unido.pdf". */
  lemma DotNameExtended(name: string)
    requires |name| >= 4 && EndsWith(Lower(name), ".pdf")
    requires forall j :: LastIndexOf(name, '/') < j < |name| - 4 ==> name[j] == '.'
    ensures OutputName(name) == name + "_unido.pdf"
  {
    PdfSuffix(name);
    LastDotSplits(name, |name| - 4);
  }

  /** A name whose lower-case form ends in ".pdf" ends in a dot followed
      by three letters. */
  lemma PdfSuffix(name: string)
    requires |name| >= 4 && EndsWith(Lower(name), ".pdf")
    ensures name[|name| - 4] == '.'
    ensures forall j :: |name| - 4 < j < |name| ==> name[j] != '.' && name[j] != '/'
  {
    var n := |name|;
    var tail := Lower(name)[n - 4..];
    assert tail == ".pdf";
    assert LowerChar(name[n - 4]) == tail[0] == '.';
    assert LowerChar(name[n - 3]) == tail[1] == 'p';
    assert LowerChar(name[n - 2]) == tail[2] == 'd';
    assert LowerChar(name[n - 1]) == tail[3] == 'f';
  }

  /** Any other name keeps all of its characters. */
  lemma OtherNameExtended(name: string)
    requires !EndsWith(Lower(name), ".pdf")
    ensures OutputName(name)[..|name|] == name
    ensures |OutputName(name)| == |name| + 10
  {
  }

  /** Where the merged file is written. */
  function OutPath(env: Env, target: string): (p: string)
    ensures p !in env.existing
  {
    Unique(env.existing, OutputName(target))
  }

  // ---------------------------------------------------------------------
  // The merged document
  // ---------------------------------------------------------------------

  /** The pages a listed file adds to the result: all of them, or none. */
  function Contribution(f: Input): seq<Page> {
    if f.insertion.Inserts? then f.insertion.pages else []
  }

  /** The result document: the contributions of the listed files, in list
      order. */
  function Merged(files: seq<Input>): seq<Page> {
    if |files| == 0 then [] else Contribution(files[0]) + Merged(files[1..])
  }

  /** Merging two lists merges their results in order. */
  lemma {:induction false} MergedConcat(a: seq<Input>, b: seq<Input>)
    ensures Merged(a + b) == Merged(a) + Merged(b)
    decreases |a|
  {
    if |a| > 0 {
      assert (a + b)[0] == a[0];
      assert (a + b)[1..] == a[1..] + b;
      MergedConcat(a[1..], b);
    } else {
      assert a + b == b;
    }
  }

  /** A file that cannot be added changes nothing in the result. */
  lemma RejectedFileAddsNothing(a: seq<Input>, f: Input, b: seq<Input>)
    requires f.insertion.Rejects?
    ensures Merged(a + [f] + b) == Merged(a + b)
  {
    ConcatAssoc(a, [f], b);
    MergedConcat(a, [f] + b);
    MergedCons(f, b);
    MergedConcat(a, b);
  }

  /** A file in front adds its contribution in front. */
  lemma MergedCons(f: Input, b: seq<Input>)
    ensures Merged([f] + b) == Contribution(f) + Merged(b)
  {
    assert ([f] + b)[1..] == b;
  }

  /** The number of pages of the files that can be added, counted from
      the end of the list. */
  function PageTotal(files: seq<Input>): nat {
    if |files| == 0 then 0
    else
      var last := files[|files| - 1];
      PageTotal(files[..|files| - 1]) + (match last.insertion case Inserts(pages) => |pages| case Rejects(_) => 0)
  }

  /** The result holds the pages of every added file, and only those. */
  lemma {:induction false} MergedSize(files: seq<Input>)
    ensures |Merged(files)| == PageTotal(files)
    decreases |files|
  {
    if |files| > 0 {
      var init := files[..|files| - 1];
      var last := files[|files| - 1];
      assert files == init + [last];
      MergedSize(init);
      MergedConcat(init, [last]);
      MergedCons(last, []);
      assert Merged([]) == [];
    }
  }

  // ---------------------------------------------------------------------
  // The run
  // ---------------------------------------------------------------------

  /** The log line about one file. */
  function FileLine(f: Input): Message {
    match f.insertion
    case Inserts(_) => FileAdded(Basename(f.path))
    case Rejects(m) => FileSkipped(Basename(f.path), m)
  }

  /** One file of the loop: the failure is caught, so the unit always
      completes, with its line logged before its progress message. */
  function FileUnit(f: Input): (u: Unit)
    ensures u.Worked? && u.before == [FileLine(f)] && u.after == []
  {
    Worked([FileLine(f)], [])
  }

  function Units(files: seq<Input>): (r: seq<Unit>)
    ensures |r| == |files|
    ensures forall i :: 0 <= i < |r| ==> r[i] == FileUnit(files[i])
  {
    seq(|files|, i requires 0 <= i < |files| => FileUnit(files[i]))
  }

  /** The log lines of the files, one per file, in list order. */
  function FileLines(files: seq<Input>): (r: seq<Message>)
    ensures |r| == |files|
    ensures forall i :: 0 <= i < |r| ==> r[i] == FileLine(files[i])
  {
    seq(|files|, i requires 0 <= i < |files| => FileLine(files[i]))
  }

  function Opening(files: seq<Input>, target: string): (r: seq<Event>)
    ensures Quiet(r) && Percents(r) == []
  {
    Note(MergeTab, MergeStarted(|files|, target))
  }

  /** The whole task, given the name the launcher chose. */
  function Merge(env: Env, files: seq<Input>, target: string): (r: Run)
    ensures WellFormed(r)
    ensures r.output.Some? ==> r.output.value == Output(OutPath(env, target), Pdf(Merged(files)))
  {
    var loop := Loop(MergeTab, Whole, Units(files), env.stop, 0);
    var ending := Save(env, MergeTab, OutPath(env, target), Pdf(Merged(files)), []);
    AfterLoopWellFormed(Opening(files, target), MergeTab, loop, ending);
    AfterLoop(Opening(files, target), MergeTab, loop, ending)
  }

  /** Every unit completes, whatever the files hold. */
  lemma UnitsComplete(files: seq<Input>)
    ensures forall j :: 0 <= j < |files| ==> Units(files)[j].Worked?
  {
  }

  /** The lines the units post are the file lines. */
  lemma UnitLinesAreFileLines(files: seq<Input>)
    ensures UnitLines(Units(files), 0, |files|) == FileLines(files)
  {
    var units, lines := Units(files), FileLines(files);
    forall j | 0 <= j < |units|
      ensures PostsOne(units[j], lines[j])
    {
      assert units[j].before == [lines[j]] && units[j].after == [];
    }
    UnitLinesMatch(units, lines, 0);
  }

  /** Not stopped: one progress message per listed file, 0..100 in
      order, failures included; the merged document is saved unless saving
      raises. */
  lemma MergeCompletes(env: Env, files: seq<Input>, target: string)
    requires !env.stop.SeenAt(|files| - 1)
    ensures var r := Merge(env, files, target);
            && Percents(r.events) == Ramp(Whole, |files|)
            && (r.output.Some? <==> env.saveError.None?)
  {
    var ending := Save(env, MergeTab, OutPath(env, target), Pdf(Merged(files)), []);
    UnitsComplete(files);
    FinishedRun(Opening(files, target), MergeTab, Whole, Units(files), env.stop, ending);
  }

  /** Not stopped: the log holds the opening line, then one line per file
      (added, or the reason it was skipped), in list order, then the
      "generated" line. */
  lemma MergeLogsEveryFile(env: Env, files: seq<Input>, target: string)
    requires !env.stop.SeenAt(|files| - 1) && env.saveError.None?
    ensures Lines(Merge(env, files, target).events)
            == [MergeStarted(|files|, target)] + FileLines(files) + [Generated(OutPath(env, target))]
  {
    var ending := Save(env, MergeTab, OutPath(env, target), Pdf(Merged(files)), []);
    UnitsComplete(files);
    FinishedRunLines(Opening(files, target), MergeTab, Whole, Units(files), env.stop, ending);
    UnitLinesAreFileLines(files);
    SaveLines(env, MergeTab, OutPath(env, target), Pdf(Merged(files)));
    assert Lines(Opening(files, target)) == [MergeStarted(|files|, target)] by {
      assert Opening(files, target)[1..] == [];
    }
  }

  /** Stopped before file k: k progress messages, the stop line and `done`,
      and no file. */
  lemma MergeStops(env: Env, files: seq<Input>, target: string, k: nat)
    requires env.stop == SetBefore(k) && k < |files|
    ensures var r := Merge(env, files, target);
            && r.output.None?
            && |Percents(r.events)| == k
            && EndsStopped(r.events, MergeTab)
  {
    var ending := Save(env, MergeTab, OutPath(env, target), Pdf(Merged(files)), []);
    UnitsComplete(files);
    StoppedRun(Opening(files, target), MergeTab, Whole, Units(files), k, ending);
  }

  /** Only saving can end a merge with an error. */
  lemma MergeErrorOnlyFromSave(env: Env, files: seq<Input>, target: string)
    ensures var r := Merge(env, files, target);
            r.events[|r.events| - 1].Error? ==> env.saveError.Some?
  {
    var loop := Loop(MergeTab, Whole, Units(files), env.stop, 0);
    var ending := Save(env, MergeTab, OutPath(env, target), Pdf(Merged(files)), []);
    UnitsComplete(files);
    LoopOfWorkedUnits(MergeTab, Whole, Units(files), env.stop);
    ErrorOnlyFromEnding(Opening(files, target), MergeTab, loop, ending);
  }
}

=== FILE: number.dfy ===
/** `_task_add_page_numbers`: write a page label on every page from a
    given page on, and save the whole document. */
module Number {
  import opened Base
  import opened Text
  import opened Paths
  import opened Events
  import opened Documents
  import opened Runs

  /** The numbering form: the first label, the first page to stamp
      (1-based), whether labels count from `startNum` or are the page
      numbers themselves, where the label goes, and the text before it. */
  datatype Settings = Settings(startNum: int, pageStart: int, useInitial: bool, x: int, fromBottom: int, prefix: string)

  /** The label page i (0-based) gets, or None when it is before the first
      page to stamp. */
  function Label(s: Settings, i: nat): Option<int> {
    if i + 1 >= s.pageStart then
      Some(if s.useInitial then s.startNum + (i - s.pageStart + 1) else i + 1)
    else None
  }

  /** The text written on a page with the given label. */
  function LabelText(s: Settings, n: int): string {
    s.prefix + IntToString(n)
  }

  /** Page i after the loop has visited it. */
  function StampPage(s: Settings, page: Page, i: nat): (r: Page)
    ensures r.text == page.text
    ensures |r.stamps| == |page.stamps| + (if i + 1 >= s.pageStart then 1 else 0)
    ensures r.stamps[..|page.stamps|] == page.stamps
  {
    match Label(s, i)
    case None => page
    case Some(n) => Page(page.text, page.stamps + [Stamp(s.x, s.fromBottom, LabelText(s, n))])
  }

  /** The saved document: every page, stamped when its turn came. Only a
      document whose pages all load reaches the save; a page that does not
      load stands here as an empty page, which is never written. */
  function Numbered(s: Settings, pages: seq<SourcePage>): (r: seq<Page>)
    ensures |r| == |pages|
    ensures forall i :: 0 <= i < |pages| && pages[i].Readable? ==> r[i] == StampPage(s, pages[i].page, i)
  {
    seq(|pages|, i requires 0 <= i < |pages| =>
      if pages[i].Readable? then StampPage(s, pages[i].page, i) else Page([], []))
  }

  /** One page of the loop: loading it may raise; otherwise nothing is
      logged around its progress message. */
  function PageUnit(page: SourcePage): (u: Unit)
    ensures u.Raised? <==> page.Unreadable?
  {
    match page
    case Unreadable(m) => Raised(m)
    case Readable(_) => Worked([], [])
  }

  function Units(pages: seq<SourcePage>): (r: seq<Unit>)
    ensures |r| == |pages|
    ensures forall i :: 0 <= i < |r| ==> r[i] == PageUnit(pages[i])
  {
    seq(|pages|, i requires 0 <= i < |pages| => PageUnit(pages[i]))
  }

  /** The first message: which file the task works on. */
  function Opening(pdfPath: string): (r: seq<Event>)
    ensures Quiet(r) && Percents(r) == []
  {
    Note(NumberTab, NumberingStarted(Basename(pdfPath)))
  }

  /** The result path: the input's stem with "_numerado.pdf", made unique
      in the result folder. */
  function OutPath(env: Env, pdfPath: string): string {
    OutputFor(env, pdfPath, "_numerado.pdf")
  }

  /** What follows a completed loop: the save, whatever was stamped. */
  function Ending(env: Env, s: Settings, pdfPath: string, pages: seq<SourcePage>): (r: Run)
    ensures WellFormed(r)
    ensures Percents(r.events) == []
    ensures r.output.Some? <==> env.saveError.None?
    ensures r.output.Some? ==> r.output.value == Output(OutPath(env, pdfPath), Pdf(Numbered(s, pages)))
  {
    var r := Save(env, NumberTab, OutPath(env, pdfPath), Pdf(Numbered(s, pages)), []);
    r
  }

  /** The whole task. */
  function Number(env: Env, s: Settings, pdfPath: string, source: Source): (r: Run)
    ensures WellFormed(r)
    ensures r.output.Some? ==> source.Opened? && r.output.value.path !in env.existing
    ensures source.Unopenable? ==> r.events == Opening(pdfPath) + [Error(source.message)]
  {
    match source
    case Unopenable(m) => Raise(Opening(pdfPath), m)
    case Opened(pages) =>
      var loop := Loop(NumberTab, Whole, Units(pages), env.stop, 0);
      var ending := Ending(env, s, pdfPath, pages);
      AfterLoopWellFormed(Opening(pdfPath), NumberTab, loop, ending);
      AfterLoop(Opening(pdfPath), NumberTab, loop, ending)
  }

  /** The task once the file is open. */
  lemma NumberUnfolds(env: Env, s: Settings, pdfPath: string, pages: seq<SourcePage>)
    ensures Number(env, s, pdfPath, Opened(pages))
            == AfterLoop(Opening(pdfPath), NumberTab, Loop(NumberTab, Whole, Units(pages), env.stop, 0), Ending(env, s, pdfPath, pages))
  {
  }

  // ---------------------------------------------------------------------
  // Labels
  // ---------------------------------------------------------------------

  /** A page is stamped exactly when its 1-based number is at least the
      first page to stamp. */
  lemma StampedIff(s: Settings, page: Page, i: nat)
    ensures StampPage(s, page, i) != page <==> i + 1 >= s.pageStart
  {
    if i + 1 >= s.pageStart {
      assert |StampPage(s, page, i).stamps| == |page.stamps| + 1;
    }
  }

  /** A stamped page carries one new stamp, at the configured position;
      after the prefix its text reads back, through Python's int(), as the
      page's place counted from start_num (or as its own 1-based number
      when labels are page numbers). */
  lemma StampContents(s: Settings, page: Page, i: nat)
    requires i + 1 >= s.pageStart
    ensures var st := StampPage(s, page, i).stamps[|page.stamps|];
            && st.x == s.x && st.fromBottom == s.fromBottom
            && st.text[..|s.prefix|] == s.prefix
            && ParseInt(st.text[|s.prefix|..]) == Some(if s.useInitial then s.startNum + (i + 1 - s.pageStart) else i + 1)
  {
    var n := Label(s, i).value;
    assert n == (if s.useInitial then s.startNum + (i + 1 - s.pageStart) else i + 1);
    var st := StampPage(s, page, i).stamps[|page.stamps|];
    assert st == Stamp(s.x, s.fromBottom, LabelText(s, n));
    LabelReadsBack(s, n);
  }

  /** Counting from start_num, the first page stamped gets start_num. */
  lemma FirstLabelIsStart(s: Settings)
    requires s.useInitial && s.pageStart >= 1
    ensures Label(s, s.pageStart - 1) == Some(s.startNum)
  {
  }

  /** Otherwise the label is the page's own 1-based number. */
  lemma LabelIsPageNumber(s: Settings, i: nat)
    requires !s.useInitial && i + 1 >= s.pageStart
    ensures Label(s, i) == Some(i + 1)
  {
  }

  /** Consecutive stamped pages get consecutive labels, in both modes. */
  lemma LabelsRiseByOne(s: Settings, i: nat)
    requires i + 1 >= s.pageStart
    ensures Label(s, i + 1).Some? && Label(s, i).Some?
    ensures Label(s, i + 1).value == Label(s, i).value + 1
  {
  }

  /** Labels count from start_num: the page k places after the first
      stamped one gets start_num + k. */
  lemma LabelOffset(s: Settings, k: nat)
    requires s.useInitial && s.pageStart >= 1
    ensures Label(s, s.pageStart - 1 + k) == Some(s.startNum + k)
  {
  }

  /** The label can be read back from the stamp: after the prefix, the
      text is the decimal form of the label, which Python's int() parses
      to the label again. */
  lemma LabelReadsBack(s: Settings, n: int)
    ensures var t := LabelText(s, n);
            t[..|s.prefix|] == s.prefix && ParseInt(t[|s.prefix|..]) == Some(n)
  {
    var t := LabelText(s, n);
    assert t[|s.prefix|..] == IntToString(n);
    ParseIntRoundTrip(n);
  }

  /** Different labels give different stamp texts. */
  lemma LabelTextInjective(s: Settings, a: int, b: int)
    requires LabelText(s, a) == LabelText(s, b)
    ensures a == b
  {
    LabelReadsBack(s, a);
    LabelReadsBack(s, b);
  }

  // ---------------------------------------------------------------------
  // The run
  // ---------------------------------------------------------------------

  /** Every page loads and the flag is never seen: one progress message
      per page, 0..100 in order. */
  lemma NumberReports(env: Env, s: Settings, pdfPath: string, pages: seq<SourcePage>)
    requires forall i :: 0 <= i < |pages| ==> pages[i].Readable?
    requires !env.stop.SeenAt(|pages| - 1)
    ensures var r := Number(env, s, pdfPath, Opened(pages));
            && Percents(r.events) == Ramp(Whole, |pages|)
            && r.output == Ending(env, s, pdfPath, pages).output
  {
    NumberUnfolds(env, s, pdfPath, pages);
    FinishedRun(Opening(pdfPath), NumberTab, Whole, Units(pages), env.stop, Ending(env, s, pdfPath, pages));
  }

  /** ...and the numbered document is saved, even when no page reaches
      page_start, unless saving raises. */
  lemma NumberAlwaysSaves(env: Env, s: Settings, pdfPath: string, pages: seq<SourcePage>)
    requires forall i :: 0 <= i < |pages| ==> pages[i].Readable?
    requires !env.stop.SeenAt(|pages| - 1)
    ensures var r := Number(env, s, pdfPath, Opened(pages));
            && (r.output.Some? <==> env.saveError.None?)
            && (r.output.Some? ==> r.output.value == Output(OutPath(env, pdfPath), Pdf(Numbered(s, pages))))
  {
    NumberReports(env, s, pdfPath, pages);
  }

  /** Stopped before page k: k progress messages, the stop line and
      `done`, and no file. */
  lemma NumberStops(env: Env, s: Settings, pdfPath: string, pages: seq<SourcePage>, k: nat)
    requires env.stop == SetBefore(k) && k < |pages|
    requires forall i :: 0 <= i < k ==> pages[i].Readable?
    ensures var r := Number(env, s, pdfPath, Opened(pages));
            && r.output.None?
            && |Percents(r.events)| == k
            && EndsStopped(r.events, NumberTab)
  {
    NumberUnfolds(env, s, pdfPath, pages);
    StoppedRun(Opening(pdfPath), NumberTab, Whole, Units(pages), k, Ending(env, s, pdfPath, pages));
  }

  /** A page that cannot be loaded ends the run with its exception. */
  lemma NumberPageFails(env: Env, s: Settings, pdfPath: string, pages: seq<SourcePage>, k: nat)
    requires k < |pages| && pages[k].Unreadable? && !env.stop.SeenAt(k)
    requires forall i :: 0 <= i < k ==> pages[i].Readable?
    ensures var r := Number(env, s, pdfPath, Opened(pages));
            && r.output.None?
            && |Percents(r.events)| == k
            && r.events[|r.events| - 1] == Error(pages[k].message)
  {
    var units := Units(pages);
    NumberUnfolds(env, s, pdfPath, pages);
    assert units[k] == Raised(pages[k].message);
    FailedRun(Opening(pdfPath), NumberTab, Whole, units, env.stop, k, Ending(env, s, pdfPath, pages));
  }
}

=== FILE: paths.dfy ===
/** POSIX path helpers (os.path.basename, splitext, join, isabs) and the
    collision-free output naming rule `unique_filename`. The filesystem is
    the finite set of paths that currently exist. */
module Paths {
  import opened Text

  /** os.path.basename: everything after the last '/'. */
  function Basename(p: string): (r: string)
    ensures '/' !in r
    ensures EndsWith(p, r)
    ensures |r| < |p| ==> p[|p| - |r| - 1] == '/'
  {
    p[LastIndexOf(p, '/') + 1..]
  }

  /** os.path.isabs. */
  predicate IsAbs(p: string) {
    |p| > 0 && p[0] == '/'
  }

  /** os.path.join with two components. */
  function PathJoin(a: string, b: string): string {
    if IsAbs(b) then b
    else if |a| == 0 || a[|a| - 1] == '/' then a + b
    else a + "/" + b
  }

  /** Putting a directory in front of a path does not change its last
      component. */
  lemma BasenameAfterDirectory(prefix: string, b: string)
    requires |prefix| == 0 || prefix[|prefix| - 1] == '/'
    ensures Basename(prefix + b) == Basename(b)
  {
    var k := LastIndexOf(b, '/');
    if k >= 0 {
      LastSlashShifts(prefix, b, k);
      SliceOfConcat(prefix, b, k + 1);
      assert Basename(prefix + b) == (prefix + b)[|prefix| + k + 1..];
      assert Basename(b) == b[k + 1..];
    } else if |prefix| > 0 {
      LastSlashEndsPrefix(prefix, b);
      SliceOfConcat(prefix, b, 0);
      assert Basename(prefix + b) == b;
      assert Basename(b) == b;
    } else {
      assert prefix + b == b;
      assert Basename(prefix + b) == Basename(b);
    }
  }

  lemma SliceOfConcat(prefix: string, b: string, i: int)
    requires 0 <= i <= |b|
    ensures (prefix + b)[|prefix| + i..] == b[i..]
  {
  }

  lemma LastSlashShifts(prefix: string, b: string, k: int)
    requires 0 <= k < |b| && k == LastIndexOf(b, '/')
    ensures LastIndexOf(prefix + b, '/') == |prefix| + k
  {
    var p := prefix + b;
    assert p[|prefix| + k] == '/';
    forall j | |prefix| + k < j < |p|
      ensures p[j] != '/'
    {
      assert p[j] == b[k + 1..][j - |prefix| - k - 1];
    }
    LastIndexOfAt(p, '/', |prefix| + k);
  }

  lemma LastSlashEndsPrefix(prefix: string, b: string)
    requires |prefix| > 0 && prefix[|prefix| - 1] == '/'
    requires '/' !in b
    ensures LastIndexOf(prefix + b, '/') == |prefix| - 1
  {
    var p := prefix + b;
    forall j | |prefix| - 1 < j < |p|
      ensures p[j] != '/'
    {
      assert p[j] == b[j - |prefix|];
    }
    LastIndexOfAt(p, '/', |prefix| - 1);
  }

  /** Joining never changes the last component. */
  lemma BasenameOfJoin(a: string, b: string)
    ensures Basename(PathJoin(a, b)) == Basename(b)
  {
    if !IsAbs(b) {
      if |a| == 0 || a[|a| - 1] == '/' {
        BasenameAfterDirectory(a, b);
      } else {
        assert PathJoin(a, b) == (a + "/") + b;
        BasenameAfterDirectory(a + "/", b);
      }
    }
  }

  /** Some character of p[lo..hi] is not a dot. */
  predicate HasNonDot(p: string, lo: int, hi: int)
    requires 0 <= lo <= hi <= |p|
  {
    exists j :: lo <= j < hi && p[j] != '.'
  }

  /** os.path.splitext: the extension starts at the last dot of the last
      component, unless everything before that dot in the component is
      dots too (".bashrc", "..pdf"), in which case there is no extension. */
  function SplitExt(p: string): (r: (string, string))
    ensures r.0 + r.1 == p
    ensures r.1 == [] || (r.1[0] == '.' && '.' !in r.1[1..] && '/' !in r.1)
  {
    var sepIndex := LastIndexOf(p, '/');
    var dotIndex := LastIndexOf(p, '.');
    if dotIndex > sepIndex && HasNonDot(p, sepIndex + 1, dotIndex) then
      assert p[..dotIndex] + p[dotIndex..] == p;
      (p[..dotIndex], p[dotIndex..])
    else (p, "")
  }

  /** A dot with no dot or separator after it, preceded by a character
      that is neither, starts the extension. */
  lemma ExtensionAt(p: string, k: int)
    requires 0 < k < |p| && p[k] == '.'
    requires forall j :: k < j < |p| ==> p[j] != '.' && p[j] != '/'
    requires p[k - 1] != '.' && p[k - 1] != '/'
    ensures SplitExt(p) == (p[..k], p[k..])
  {
    LastIndexOfAt(p, '.', k);
    var sep := LastIndexOf(p, '/');
    assert sep < k - 1;
    assert HasNonDot(p, sep + 1, k) by { assert p[k - 1] != '.'; }
  }

  /** The last dot of a path, with no separator after it, starts the
      extension exactly when some character other than a dot precedes it
      in the last component; otherwise there is no extension. */
  lemma LastDotSplits(p: string, k: int)
    requires 0 <= k < |p| && p[k] == '.'
    requires forall j :: k < j < |p| ==> p[j] != '.' && p[j] != '/'
    ensures LastIndexOf(p, '/') < k
    ensures HasNonDot(p, LastIndexOf(p, '/') + 1, k) ==> SplitExt(p) == (p[..k], p[k..])
    ensures !HasNonDot(p, LastIndexOf(p, '/') + 1, k) ==> SplitExt(p) == (p, "")
  {
    LastIndexOfAt(p, '.', k);
  }

  /** os.path.splitext(os.path.basename(p))[0]: the file name without its
      extension, from which every task names its output. */
  function Stem(p: string): string {
    SplitExt(Basename(p)).0
  }

  /** A name without a separator is its own base name. */
  lemma BasenameOfFlat(p: string)
    requires '/' !in p
    ensures Basename(p) == p
  {
  }

  /** A stem holds no separator. */
  lemma StemIsFlat(p: string)
    ensures '/' !in Stem(p)
  {
    var b := Basename(p);
    var stem := SplitExt(b).0;
    assert stem == b[..|stem|];
    forall j | 0 <= j < |stem|
      ensures stem[j] != '/'
    {
      assert b[j] in b;
    }
  }

  // ---------------------------------------------------------------------
  // unique_filename
  // ---------------------------------------------------------------------

  /** The k-th candidate `base_k.ext` tried when `base.ext` is taken. */
  function Candidate(base: string, k: nat, ext: string): string {
    base + "_" + NatToString(k) + ext
  }

  lemma CandidateInjective(base: string, ext: string, j: nat, k: nat)
    requires Candidate(base, j, ext) == Candidate(base, k, ext)
    ensures j == k
  {
    var a := NatToString(j);
    var b := NatToString(k);
    var n := |base| + 1;
    assert |a| == |b|;
    assert Candidate(base, j, ext)[n..n + |a|] == a;
    assert Candidate(base, k, ext)[n..n + |b|] == b;
    NatToStringInjective(j, k);
  }

  /** The first m candidates, as a set. */
  function Candidates(base: string, ext: string, m: nat): (r: set<string>)
    ensures forall j :: 1 <= j <= m ==> Candidate(base, j, ext) in r
    ensures forall s :: s in r ==> exists j :: 1 <= j <= m && s == Candidate(base, j, ext)
  {
    if m == 0 then {} else Candidates(base, ext, m - 1) + {Candidate(base, m, ext)}
  }

  /** The first m candidates are m different names. */
  lemma {:induction false} CandidatesSize(base: string, ext: string, m: nat)
    ensures |Candidates(base, ext, m)| == m
  {
    if m > 0 {
      CandidatesSize(base, ext, m - 1);
      if Candidate(base, m, ext) in Candidates(base, ext, m - 1) {
        var j :| 1 <= j <= m - 1 && Candidate(base, m, ext) == Candidate(base, j, ext);
        CandidateInjective(base, ext, j, m);
      }
      assert Candidate(base, m, ext) !in Candidates(base, ext, m - 1);
    }
  }

  /** Pigeonhole: a finite filesystem cannot hold more than |fs| candidates,
      which is why the search for a free name terminates. */
  lemma CandidatesBound(fs: set<string>, base: string, ext: string, m: nat)
    requires forall j :: 1 <= j <= m ==> Candidate(base, j, ext) in fs
    ensures m <= |fs|
  {
    var c := Candidates(base, ext, m);
    CandidatesSize(base, ext, m);
    assert fs == c + (fs - c);
    assert |fs| == |c| + |fs - c|;
  }

  /** k is the counter unique_filename stops at: candidate k is free and
      every earlier candidate is taken. */
  predicate MinimalFree(fs: set<string>, base: string, ext: string, k: nat) {
    && k >= 1
    && Candidate(base, k, ext) !in fs
    && forall j :: 1 <= j < k ==> Candidate(base, j, ext) in fs
  }

  lemma MinimalFreeUnique(fs: set<string>, base: string, ext: string, k1: nat, k2: nat)
    requires MinimalFree(fs, base, ext, k1) && MinimalFree(fs, base, ext, k2)
    ensures k1 == k2
  {
  }

  /** The least free counter at or above k. */
  function FirstFree(fs: set<string>, base: string, ext: string, k: nat): (r: nat)
    requires k >= 1
    requires forall j :: 1 <= j < k ==> Candidate(base, j, ext) in fs
    ensures MinimalFree(fs, base, ext, r)
    decreases |fs| + 1 - k
  {
    if Candidate(base, k, ext) !in fs then k
    else
      CandidatesBound(fs, base, ext, k);
      FirstFree(fs, base, ext, k + 1)
  }

  /** unique_filename as a function of the set of existing paths: the path
      itself when free, otherwise `base_k.ext` for the least k >= 1 that is
      free. */
  function Unique(fs: set<string>, path: string): (r: string)
    ensures r !in fs
    ensures path !in fs ==> r == path
    ensures path in fs ==> exists k :: MinimalFree(fs, SplitExt(path).0, SplitExt(path).1, k)
                                       && r == Candidate(SplitExt(path).0, k, SplitExt(path).1)
  {
    if path !in fs then path
    else
      var (base, ext) := SplitExt(path);
      Candidate(base, FirstFree(fs, base, ext, 1), ext)
  }

  /** The program's loop: try the path, then `base_1.ext`, `base_2.ext`, ...
      until a name does not exist. */
  method UniqueFilename(fs: set<string>, path: string) returns (newPath: string)
    ensures newPath !in fs
    ensures newPath == Unique(fs, path)
  {
    var (base, ext) := SplitExt(path);
    var counter := 1;
    newPath := path;
    while newPath in fs
      invariant counter >= 1
      invariant counter == 1 ==> newPath == path
      invariant counter > 1 ==> path in fs && newPath == Candidate(base, counter - 1, ext)
      invariant forall j :: 1 <= j < counter - 1 ==> Candidate(base, j, ext) in fs
      decreases |fs| + 1 - counter
    {
      CandidatesBound(fs, base, ext, counter - 1);
      newPath := Candidate(base, counter, ext);
      counter := counter + 1;
    }
    if counter > 1 {
      assert MinimalFree(fs, base, ext, counter - 1);
      var k :| MinimalFree(fs, base, ext, k) && Unique(fs, path) == Candidate(base, k, ext);
      MinimalFreeUnique(fs, base, ext, k, counter - 1);
    }
  }

  /** With `a.pdf` and `a_1.pdf` taken, the next output is `a_2.pdf`. */
  lemma UniqueSkipsTakenNames()
    ensures Unique({"a.pdf", "a_1.pdf"}, "a.pdf") == "a_2.pdf"
  {
    var fs := {"a.pdf", "a_1.pdf"};
    SplitExample();
    CandidateExamples();
    assert MinimalFree(fs, "a", ".pdf", 2);
    var k :| MinimalFree(fs, "a", ".pdf", k) && Unique(fs, "a.pdf") == Candidate("a", k, ".pdf");
    MinimalFreeUnique(fs, "a", ".pdf", k, 2);
  }

  lemma SplitExample()
    ensures SplitExt("a.pdf") == ("a", ".pdf")
  {
    ExtensionAt("a.pdf", 1);
    assert "a.pdf"[..1] == "a" && "a.pdf"[1..] == ".pdf";
  }

  lemma CandidateExamples()
    ensures Candidate("a", 1, ".pdf") == "a_1.pdf"
    ensures Candidate("a", 2, ".pdf") == "a_2.pdf"
  {
    assert NatToString(1) == "1";
    assert NatToString(2) == "2";
  }
}

=== FILE: ranges.dfy ===
/** The page-range expression of the extract task ("1-3,6,9-12"): a comma
    separated list of 1-based pages and inclusive ranges, turned into the
    ascending, duplicate-free list of 0-based page indices of the document.
    Malformed pieces are skipped, never fatal. */
module Ranges {
  import opened Base
  import opened Text

  /** The integers lo, lo+1, ..., hi-1. */
  function Interval(lo: int, hi: int): (r: seq<int>)
    ensures forall p :: p in r <==> lo <= p < hi
    ensures StrictlyIncreasing(r)
    decreases hi - lo
  {
    if lo >= hi then []
    else
      var rest := Interval(lo + 1, hi);
      assert forall i :: 0 <= i < |rest| ==> rest[i] in rest;
      [lo] + rest
  }

  /** What one stripped token asks for, stated declaratively: a token with a
      '-' is split at its first '-', both halves must read as integers and
      `p` must lie between them (1-based, inclusive); any other token must
      read as the integer p + 1. */
  predicate Covers(part: string, p: int) {
    if '-' in part then
      var i := IndexOf(part, '-');
      var start := ParseInt(part[..i]);
      var end := ParseInt(part[i + 1..]);
      start.Some? && end.Some? && start.value <= p + 1 <= end.value
    else
      ParseInt(part) == Some(p + 1)
  }

  /** The 0-based pages one stripped token contributes, in the order the
      program appends them (an empty, unreadable or reversed token gives
      none). */
  function TokenPages(part: string): seq<int>
  {
    if |part| == 0 then []
    else if '-' in part then
      var i := IndexOf(part, '-');
      SpanPages(ParseInt(part[..i]), ParseInt(part[i + 1..]))
    else
      ValuePages(ParseInt(part))
  }

  /** The pages of a range token whose halves read as `start` and `end`. */
  function SpanPages(start: Option<int>, end: Option<int>): seq<int>
  {
    match (start, end)
    case (Some(s), Some(e)) =>
      if s - 1 <= e - 1 then Interval(s - 1, e) else []
    case _ => []
  }

  /** The page of a single-number token that reads as `v`. */
  function ValuePages(v: Option<int>): seq<int>
  {
    match v
    case Some(n) => [n - 1]
    case None => []
  }

  /** The constructive and the declarative reading of a token agree. */
  lemma TokenPagesCovers(part: string, p: int)
    ensures p in TokenPages(part) <==> Covers(part, p)
  {
    if |part| == 0 {
      assert ParseInt(part) == None by { assert Strip(part) == ""; }
    } else if '-' in part {
      var i := IndexOf(part, '-');
      SpanPagesCover(ParseInt(part[..i]), ParseInt(part[i + 1..]), p);
    } else {
      ValuePagesCover(ParseInt(part), p);
    }
  }

  lemma SpanPagesCover(start: Option<int>, end: Option<int>, p: int)
    ensures p in SpanPages(start, end) <==> start.Some? && end.Some? && start.value <= p + 1 <= end.value
  {
  }

  lemma ValuePagesCover(v: Option<int>, p: int)
    ensures p in ValuePages(v) <==> v == Some(p + 1)
  {
  }

  /** Some comma-separated piece of `expr` asks for page `p`. */
  predicate Asks(expr: string, p: int) {
    exists part :: part in Split(expr, ',') && Covers(Strip(part), p)
  }

  /** The program's `pages_to_extract` list before filtering: every piece's
      pages, piece after piece. */
  function Requested(parts: seq<string>): (r: seq<int>)
  {
    if |parts| == 0 then []
    else TokenPages(Strip(parts[0])) + Requested(parts[1..])
  }

  /** A page is requested exactly when some piece covers it. */
  lemma {:induction false} RequestedCovers(parts: seq<string>, p: int)
    ensures p in Requested(parts) <==> exists part :: part in parts && Covers(Strip(part), p)
  {
    if |parts| > 0 {
      RequestedCovers(parts[1..], p);
      TokenPagesCovers(Strip(parts[0]), p);
      assert forall part :: part in parts <==> part == parts[0] || part in parts[1..];
    }
  }

  predicate StrictlyIncreasing(s: seq<int>) {
    forall i, j :: 0 <= i < j < |s| ==> s[i] < s[j]
  }

  /** A value below every element of an ascending sequence can be put in
      front of it. */
  lemma ConsIncreasing(x: int, rest: seq<int>)
    requires StrictlyIncreasing(rest)
    requires forall j :: 0 <= j < |rest| ==> x < rest[j]
    ensures StrictlyIncreasing([x] + rest)
    ensures forall k :: k in [x] + rest <==> k == x || k in rest
  {
  }

  /** The members of `raw` in [lo, hi), once each, in ascending order. */
  function Ascending(raw: seq<int>, lo: int, hi: int): (r: seq<int>)
    ensures StrictlyIncreasing(r)
    ensures forall p :: p in r <==> lo <= p < hi && p in raw
    decreases hi - lo
  {
    if lo >= hi then []
    else
      var rest := Ascending(raw, lo + 1, hi);
      if lo in raw then
        assert forall p :: p in [lo] + rest <==> p == lo || p in rest;
        assert forall i :: 0 <= i < |rest| ==> rest[i] in rest;
        [lo] + rest
      else rest
  }

  /** The range parser: the pages some piece asks for that exist in a
      document of `totalPages` pages, ascending and without repeats. */
  function ParseRanges(expr: string, totalPages: int): (r: seq<int>)
    ensures StrictlyIncreasing(r)
    ensures forall p :: p in r <==> 0 <= p < totalPages && Asks(expr, p)
  {
    var parts := Split(expr, ',');
    var raw := Requested(parts);
    assert forall p :: p in raw <==> Asks(expr, p) by {
      forall p
        ensures p in raw <==> Asks(expr, p)
      {
        RequestedCovers(parts, p);
      }
    }
    Ascending(raw, 0, totalPages)
  }

  /** Two ascending lists with the same members are the same list. */
  lemma {:induction false} StrictlyIncreasingUnique(a: seq<int>, b: seq<int>)
    requires StrictlyIncreasing(a) && StrictlyIncreasing(b)
    requires forall p :: p in a <==> p in b
    ensures a == b
    decreases |a|
  {
    if |a| > 0 { assert a[0] in a; }
    if |b| > 0 { assert b[0] in b; }
    if |a| > 0 && |b| > 0 {
      assert a[0] in b;
      assert b[0] in a;
      assert a[0] == b[0] by {
        var i :| 0 <= i < |b| && b[i] == a[0];
        var j :| 0 <= j < |a| && a[j] == b[0];
        assert b[0] <= b[i] && a[0] <= a[j];
      }
      forall p
        ensures p in a[1..] <==> p in b[1..]
      {
        if p in a[1..] {
          var i :| 0 <= i < |a| - 1 && a[1..][i] == p;
          assert a[i + 1] == p && a[0] < p;
          assert p in b;
          var k :| 0 <= k < |b| && b[k] == p;
          assert k != 0;
          assert b[1..][k - 1] == p;
        }
        if p in b[1..] {
          var i :| 0 <= i < |b| - 1 && b[1..][i] == p;
          assert b[i + 1] == p && b[0] < p;
          assert p in a;
          var k :| 0 <= k < |a| && a[k] == p;
          assert k != 0;
          assert a[1..][k - 1] == p;
        }
      }
      StrictlyIncreasingUnique(a[1..], b[1..]);
    }
  }

  /** A piece contributes independently of its neighbours: the pages of
      `a,b` are the pages of `a` together with the pages of `b`. A bad
      piece therefore takes nothing away from the good ones. */
  lemma PiecesIndependent(a: string, b: string, totalPages: int, p: int)
    ensures p in ParseRanges(a + "," + b, totalPages)
            <==> p in ParseRanges(a, totalPages) || p in ParseRanges(b, totalPages)
  {
    SplitConcat(a, b);
    var pa := Split(a, ',');
    var pb := Split(b, ',');
    assert forall part :: part in pa + pb <==> part in pa || part in pb;
  }

  /** Splitting `a,b` splits `a` and `b` separately. */
  lemma SplitConcat(a: string, b: string)
    ensures Split(a + "," + b, ',') == Split(a, ',') + Split(b, ',')
  {
    var pa := Split(a, ',');
    var pb := Split(b, ',');
    JoinConcat(pa, pb, ',');
    assert Join(pa + pb, ',') == a + "," + b;
    SplitJoin(pa + pb, ',');
  }

  /** The selection is empty exactly when the expression asks for no page
      of the document. */
  lemma NothingAskedIffEmpty(expr: string, totalPages: int)
    ensures ParseRanges(expr, totalPages) == [] <==> forall p :: 0 <= p < totalPages ==> !Asks(expr, p)
  {
    var r := ParseRanges(expr, totalPages);
    if r != [] {
      assert r[0] in r;
    }
  }

  /** Every selected index is a page of the document. */
  lemma SelectionInBounds(expr: string, totalPages: int)
    ensures var r := ParseRanges(expr, totalPages);
            forall j :: 0 <= j < |r| ==> 0 <= r[j] < totalPages
  {
    var r := ParseRanges(expr, totalPages);
    assert forall j :: 0 <= j < |r| ==> r[j] in r;
  }

  /** An empty expression selects nothing. */
  lemma EmptyExpressionSelectsNothing(totalPages: int)
    ensures ParseRanges("", totalPages) == []
  {
    assert Split("", ',') == [""];
    assert forall p :: !Covers(Strip(""), p) by {
      assert Strip("") == "";
      assert ParseInt("") == None;
    }
    StrictlyIncreasingUnique(ParseRanges("", totalPages), []);
  }

  /** A reversed range selects nothing: "5-2" gives no page. */
  lemma ReversedRangeSelectsNothing()
    ensures ParseRanges("5-2", 10) == []
  {
    assert NatToString(5) + "-" + NatToString(2) == "5-2";
    var r := ParseRanges("5-2", 10);
    if |r| > 0 {
      RangeTokenSelects(5, 2, 10, r[0]);
      assert false;
    }
  }

  /** A token without commas and without surrounding whitespace is one
      piece, read as it stands. */
  lemma SingleToken(t: string, totalPages: int, p: int)
    requires ',' !in t
    requires |t| > 0 && !IsSpace(t[0]) && !IsSpace(t[|t| - 1])
    ensures p in ParseRanges(t, totalPages) <==> 0 <= p < totalPages && Covers(t, p)
  {
    assert Split(t, ',') == [t];
    StripUnchanged(t);
    assert Asks(t, p) ==> Covers(t, p);
    assert Covers(t, p) ==> Asks(t, p) by {
      if Covers(t, p) {
        assert t in Split(t, ',') && Covers(Strip(t), p);
      }
    }
  }

  /** A bare page number `v` selects page v - 1 when the document has it. */
  lemma PageTokenSelects(v: nat, totalPages: int, p: int)
    ensures p in ParseRanges(NatToString(v), totalPages) <==> 0 <= p < totalPages && p == v - 1
  {
    var t := NatToString(v);
    assert forall j :: 0 <= j < |t| ==> t[j] != ',' && t[j] != '-';
    SingleToken(t, totalPages, p);
    assert IntToString(v) == t;
    ParseIntRoundTrip(v);
  }

  /** The range token `s-e` covers the 1-based pages s..e. */
  lemma RangeTokenCovers(s: nat, e: nat, p: int)
    ensures Covers(NatToString(s) + "-" + NatToString(e), p) <==> s <= p + 1 <= e
  {
    NumeralReads(s);
    NumeralReads(e);
    CoversRange(NatToString(s), NatToString(e), s, e, p);
  }

  /** A numeral has no dash and reads back as its number. */
  lemma NumeralReads(n: nat)
    ensures '-' !in NatToString(n) && ParseInt(NatToString(n)) == Some(n)
  {
    var a := NatToString(n);
    assert forall j :: 0 <= j < |a| ==> a[j] != '-';
    assert IntToString(n) == a;
    ParseIntRoundTrip(n);
  }

  /** A dash between two readable halves covers the pages between them. */
  lemma CoversRange(a: string, b: string, s: int, e: int, p: int)
    requires '-' !in a && ParseInt(a) == Some(s) && ParseInt(b) == Some(e)
    ensures Covers(a + "-" + b, p) <==> s <= p + 1 <= e
  {
    FirstAfter(a, '-', b);
  }

  /** A range token `s-e` selects the pages s..e (1-based, inclusive) that
      the document has, and nothing when s > e. */
  lemma RangeTokenSelects(s: nat, e: nat, totalPages: int, p: int)
    ensures p in ParseRanges(NatToString(s) + "-" + NatToString(e), totalPages)
            <==> 0 <= p < totalPages && s <= p + 1 <= e
  {
    RangeTokenIsOnePiece(s, e, totalPages, p);
    RangeTokenCovers(s, e, p);
  }

  lemma RangeTokenIsOnePiece(s: nat, e: nat, totalPages: int, p: int)
    ensures p in ParseRanges(NatToString(s) + "-" + NatToString(e), totalPages)
            <==> 0 <= p < totalPages && Covers(NatToString(s) + "-" + NatToString(e), p)
  {
    RangeTokenShape(s, e);
    SingleToken(NatToString(s) + "-" + NatToString(e), totalPages, p);
  }

  lemma RangeTokenShape(s: nat, e: nat)
    ensures var t := NatToString(s) + "-" + NatToString(e);
            ',' !in t && |t| > 0 && !IsSpace(t[0]) && !IsSpace(t[|t| - 1])
  {
    var a := NatToString(s);
    var b := NatToString(e);
    var t := a + "-" + b;
    assert forall j :: 0 <= j < |t| ==> t[j] != ',';
    assert t[0] == a[0] && t[|t| - 1] == b[|b| - 1];
  }

  /** A well-formed range token within the document selects exactly its
      pages, in order; a reversed one (s > e) selects nothing. */
  lemma RangeTokenExact(s: nat, e: nat, totalPages: int)
    requires 1 <= s && e <= totalPages
    ensures ParseRanges(NatToString(s) + "-" + NatToString(e), totalPages) == Interval(s - 1, e)
  {
    var got := ParseRanges(NatToString(s) + "-" + NatToString(e), totalPages);
    forall p
      ensures p in got <==> p in Interval(s - 1, e)
    {
      RangeTokenSelects(s, e, totalPages, p);
    }
    StrictlyIncreasingUnique(got, Interval(s - 1, e));
  }

  /** Two expressions that select runs of consecutive pages, the first run
      entirely before the second, select both runs one after the other when
      joined by a comma (see TwoRangesExample). */
  lemma IntervalsConcatenate(x: string, y: string, totalPages: int, lo1: int, hi1: int, lo2: int, hi2: int)
    requires ParseRanges(x, totalPages) == Interval(lo1, hi1)
    requires ParseRanges(y, totalPages) == Interval(lo2, hi2)
    requires hi1 <= lo2
    ensures ParseRanges(x + "," + y, totalPages) == Interval(lo1, hi1) + Interval(lo2, hi2)
  {
    SelectionsConcatenate(x, y, totalPages, hi1 - 1);
  }

  /** When every page the first expression selects precedes every page the
      second one selects, joining them with a comma concatenates their
      selections. */
  lemma SelectionsConcatenate(x: string, y: string, totalPages: int, m: int)
    requires forall p :: p in ParseRanges(x, totalPages) ==> p <= m
    requires forall p :: p in ParseRanges(y, totalPages) ==> m < p
    ensures ParseRanges(x + "," + y, totalPages) == ParseRanges(x, totalPages) + ParseRanges(y, totalPages)
  {
    var got := ParseRanges(x + "," + y, totalPages);
    var want := ParseRanges(x, totalPages) + ParseRanges(y, totalPages);
    forall p
      ensures p in got <==> p in want
    {
      PiecesIndependent(x, y, totalPages, p);
    }
    ConcatIncreasing(ParseRanges(x, totalPages), ParseRanges(y, totalPages), m);
    StrictlyIncreasingUnique(got, want);
  }

  lemma ConcatIncreasing(x: seq<int>, y: seq<int>, m: int)
    requires StrictlyIncreasing(x) && StrictlyIncreasing(y)
    requires forall p :: p in x ==> p <= m
    requires forall p :: p in y ==> m < p
    ensures StrictlyIncreasing(x + y)
  {
    assert forall i :: 0 <= i < |x| ==> x[i] in x;
    assert forall i :: 0 <= i < |y| ==> y[i] in y;
  }

  /** A piece that asks for no page is skipped: the rest of the expression
      selects what it selects alone. */
  lemma UnreadablePieceSkipped(bad: string, rest: string, totalPages: int)
    requires ',' !in bad
    requires forall p :: !Covers(Strip(bad), p)
    ensures ParseRanges(bad + "," + rest, totalPages) == ParseRanges(rest, totalPages)
  {
    var got := ParseRanges(bad + "," + rest, totalPages);
    var alone := ParseRanges(rest, totalPages);
    SplitJoin([bad], ',');
    assert Split(bad, ',') == [bad];
    forall p
      ensures p in got <==> p in alone
    {
      PiecesIndependent(bad, rest, totalPages, p);
      assert !Asks(bad, p);
    }
    StrictlyIncreasingUnique(got, alone);
  }

  /** "abc" is not an integer, so the piece "abc" asks for nothing. */
  lemma LettersAskForNothing(p: int)
    ensures !Covers("abc", p)
  {
    var t := "abc";
    assert '-' !in t;
    StripUnchanged(t);
    assert !IsDecimalLiteral(t);
  }

  /** "1-3,6-7" over ten pages selects the 0-based pages 0, 1, 2, 5, 6. */
  lemma TwoRangesExample(expr: string)
    requires expr == "1-3,6-7"
    ensures ParseRanges(expr, 10) == [0, 1, 2, 5, 6]
  {
    ExampleTexts();
    ExampleNumerals();
    RangeExample("1-3", 1, 3);
    RangeExample("6-7", 6, 7);
    ExampleIntervals();
    IntervalsConcatenate("1-3", "6-7", 10, 0, 3, 5, 7);
  }

  /** One range piece of the examples, over ten pages. */
  lemma RangeExample(t: string, s: nat, e: nat)
    requires 1 <= s && e <= 10 && t == NatToString(s) + "-" + NatToString(e)
    ensures ParseRanges(t, 10) == Interval(s - 1, e)
  {
    RangeTokenExact(s, e, 10);
  }

  /** "abc,2" selects page 1 alone: the unreadable piece is skipped. */
  lemma LettersThenPageExample(expr: string)
    requires expr == "abc,2"
    ensures ParseRanges(expr, 10) == [1]
  {
    ExampleTexts();
    LettersSkipped("2");
    PageExample("2", 2);
  }

  /** The piece "abc" in front of an expression changes nothing. */
  lemma LettersSkipped(rest: string)
    ensures ParseRanges("abc" + "," + rest, 10) == ParseRanges(rest, 10)
  {
    var t := "abc";
    assert '-' !in t && ',' !in t;
    StripUnchanged(t);
    forall p
      ensures !Covers(Strip(t), p)
    {
      LettersAskForNothing(p);
    }
    UnreadablePieceSkipped(t, rest, 10);
  }

  /** "1\x1c-3,2" over ten pages selects page 1 alone: str.strip() would
      treat U+001C as whitespace, but int() rejects "1\x1c", so the range
      piece is skipped rather than read as 1-3. */
  lemma SeparatorThenPageExample(expr: string)
    requires expr == "1\U{1c}-3,2"
    ensures ParseRanges(expr, 10) == [1]
  {
    var t := "1\U{1c}-3";
    CommaJoined(t, "2", expr);
    SeparatorSkipped(t, "2");
    PageExample("2", 2);
  }

  /** A piece whose start holds an information separator changes nothing. */
  lemma SeparatorSkipped(t: string, rest: string)
    requires t == "1\U{1c}-3"
    ensures ParseRanges(t + "," + rest, 10) == ParseRanges(rest, 10)
  {
    assert '-' in t && ',' !in t && IndexOf(t, '-') == 2;
    StripUnchanged(t);
    SeparatorRejected(t[..2], 1);
    forall p
      ensures !Covers(Strip(t), p)
    {
    }
    UnreadablePieceSkipped(t, rest, 10);
  }

  /** One page piece of the examples, over ten pages. */
  lemma PageExample(t: string, v: nat)
    requires 1 <= v <= 10 && t == NatToString(v)
    ensures ParseRanges(t, 10) == [v - 1]
  {
    var got := ParseRanges(t, 10);
    forall p
      ensures p in got <==> p in [v - 1]
    {
      PageTokenSelects(v, 10, p);
    }
    StrictlyIncreasingUnique(got, [v - 1]);
  }

  lemma CommaJoined(x: string, y: string, xy: string)
    requires |xy| == |x| + 1 + |y| && xy[..|x|] == x && xy[|x|] == ',' && xy[|x| + 1..] == y
    ensures x + "," + y == xy
  {
    assert xy == xy[..|x|] + [xy[|x|]] + xy[|x| + 1..];
  }

  lemma ExampleTexts()
    ensures "1-3" + "," + "6-7" == "1-3,6-7"
    ensures "abc" + "," + "2" == "abc,2"
  {
    CommaJoined("1-3", "6-7", "1-3,6-7");
    CommaJoined("abc", "2", "abc,2");
  }

  lemma ExampleNumerals()
    ensures NatToString(1) + "-" + NatToString(3) == "1-3"
    ensures NatToString(6) + "-" + NatToString(7) == "6-7"
  {
    assert NatToString(1) == "1" && NatToString(3) == "3";
    assert NatToString(6) == "6" && NatToString(7) == "7";
  }

  lemma ExampleIntervals()
    ensures Interval(0, 3) + Interval(5, 7) == [0, 1, 2, 5, 6]
  {
    assert Interval(2, 3) == [2] && Interval(6, 7) == [6];
    assert Interval(0, 3) == [0, 1, 2] && Interval(5, 7) == [5, 6];
  }

}

=== FILE: runs.dfy ===
/** A task run as a whole: the messages it posts and the file it writes.
    Every task has the same skeleton: an opening log line, some set-up that
    may raise, the shared loop, and then either the loop's closing messages
    or the task's ending, which usually saves a file. */
module Runs {
  import opened Base
  import opened Events
  import opened Documents
  import opened Paths

  /** What a task sees of the world: the paths that exist, the configured
      result folder, when the stop flag is set, and whether saving the
      result raises. */
  datatype Env = Env(existing: set<string>, resultFolder: string, stop: Stop, saveError: Option<string>)

  /** A file written by a task. */
  datatype Output = Output(path: string, artifact: Artifact)

  /** Everything a run does that the rest of the program can observe. */
  datatype Run = Run(events: seq<Event>, output: Option<Output>)

  /** Exactly one `done` or `error`, as the last message, and a file only
      when that message is `done`. */
  predicate WellFormed(r: Run) {
    Terminated(r.events) && (r.output.Some? ==> r.events[|r.events| - 1] == Done)
  }

  /** unique_filename(os.path.join(result_folder, name)): where a task
      writes its result. */
  function ResultPath(env: Env, name: string): (p: string)
    ensures p !in env.existing
    ensures Basename(PathJoin(env.resultFolder, name)) == Basename(name)
    ensures PathJoin(env.resultFolder, name) !in env.existing ==> p == PathJoin(env.resultFolder, name)
  {
    BasenameOfJoin(env.resultFolder, name);
    Unique(env.existing, PathJoin(env.resultFolder, name))
  }

  /** The output of a task on one PDF: the input's file name without its
      extension, then the task's suffix, made unique in the result folder. */
  function OutputFor(env: Env, pdfPath: string, suffix: string): (p: string)
    ensures p !in env.existing
  {
    ResultPath(env, Stem(pdfPath) + suffix)
  }

  /** When the plain name is free, the output's base name is the input's
      stem followed by the suffix. */
  lemma OutputNamed(env: Env, pdfPath: string, suffix: string)
    requires '/' !in suffix
    ensures PathJoin(env.resultFolder, Stem(pdfPath) + suffix) !in env.existing
            ==> Basename(OutputFor(env, pdfPath, suffix)) == Stem(pdfPath) + suffix
  {
    OutputNameIsFlat(pdfPath, suffix);
  }

  /** With a suffix free of separators, the output name is its own base
      name. */
  lemma OutputNameIsFlat(pdfPath: string, suffix: string)
    ensures '/' !in suffix ==> Basename(Stem(pdfPath) + suffix) == Stem(pdfPath) + suffix
  {
    if '/' !in suffix {
      var stem := Stem(pdfPath);
      var name := stem + suffix;
      StemIsFlat(pdfPath);
      assert '/' !in name by {
        assert forall j :: 0 <= j < |name| ==> name[j] == (if j < |stem| then stem[j] else suffix[j - |stem|]);
      }
      BasenameOfFlat(name);
    }
  }

  /** `save(path)`, then the "generated" log line, the messages of
      `trailer`, and `done`; or the one `error` when saving raises. */
  function Save(env: Env, tab: Tab, path: string, artifact: Artifact, trailer: seq<Event>): (r: Run)
    requires Quiet(trailer)
    ensures WellFormed(r)
    ensures r.output.Some? <==> env.saveError.None?
    ensures r.output.Some? ==> r.output.value == Output(path, artifact)
    ensures env.saveError.Some? ==> r.events == [Error(env.saveError.value)]
    ensures env.saveError.None? ==> Percents(r.events) == Percents(trailer)
    ensures Percents(trailer) == [] ==> Percents(r.events) == []
  {
    match env.saveError
    case Some(m) =>
      assert [Error(m)][1..] == [];
      assert Percents([Error(m)]) == [];
      Run([Error(m)], None)
    case None =>
      var opening := [Log(tab, Generated(path))];
      var events := opening + trailer + [Done];
      assert events[..|events| - 1] == opening + trailer;
      QuietConcat(opening, trailer);
      assert Percents(opening) == [] by { assert opening[1..] == []; }
      assert Percents([Done]) == [] by { assert [Done][1..] == []; }
      PercentsConcat(opening, trailer);
      PercentsConcat(opening + trailer, [Done]);
      Run(events, Some(Output(path, artifact)))
  }

  /** A save with nothing in between logs only the "generated" line. */
  lemma SaveLines(env: Env, tab: Tab, path: string, artifact: Artifact)
    requires env.saveError.None?
    ensures Lines(Save(env, tab, path, artifact, []).events) == [Generated(path)]
  {
    var events := [Log(tab, Generated(path))] + [] + [Done];
    assert events[1..] == [Done] && [Done][1..] == [];
  }

  /** A run that ends where an exception is raised before the loop. */
  function Raise(prefix: seq<Event>, message: string): (r: Run)
    requires Quiet(prefix)
    ensures WellFormed(r) && r.output.None?
    ensures r.events[|r.events| - 1] == Error(message)
    ensures Percents(r.events) == Percents(prefix)
  {
    assert (prefix + [Error(message)])[..|prefix|] == prefix;
    assert Percents([Error(message)]) == [] by { assert [Error(message)][1..] == []; }
    PercentsConcat(prefix, [Error(message)]);
    Run(prefix + [Error(message)], None)
  }

  /** A run that ends with a log line and `done` without saving anything. */
  function Conclude(prefix: seq<Event>, tab: Tab, text: Message): (r: Run)
    requires Quiet(prefix)
    ensures WellFormed(r) && r.output.None?
    ensures r.events == prefix + [Log(tab, text), Done]
    ensures Percents(r.events) == Percents(prefix)
  {
    var events := prefix + [Log(tab, text), Done];
    assert Percents([Log(tab, text), Done]) == [] by {
      assert [Log(tab, text), Done][1..] == [Done] && [Done][1..] == [];
    }
    PercentsConcat(prefix, [Log(tab, text), Done]);
    assert events[..|events| - 1] == prefix + [Log(tab, text)];
    QuietConcat(prefix, [Log(tab, text)]);
    Run(events, None)
  }

  /** What follows a loop: when it finished, the rest of the task; when it
      was stopped or raised, its closing messages and no file. */
  function AfterLoop(prefix: seq<Event>, tab: Tab, loop: LoopEnd, rest: Run): (r: Run)
    ensures r.output.Some? ==> loop.outcome.Finished? && r.output == rest.output
  {
    if loop.outcome.Finished? then
      Run(prefix + loop.events + rest.events, rest.output)
    else
      Run(prefix + loop.events + Closing(tab, loop.outcome), None)
  }

  /** The messages of a run are well formed when its prefix and its loop
      post nothing terminal and the ending is well formed. */
  lemma AfterLoopWellFormed(prefix: seq<Event>, tab: Tab, loop: LoopEnd, rest: Run)
    requires Quiet(prefix) && Quiet(loop.events) && WellFormed(rest)
    ensures WellFormed(AfterLoop(prefix, tab, loop, rest))
  {
    QuietConcat(prefix, loop.events);
    if loop.outcome.Finished? {
      TerminatedAfterQuiet(prefix + loop.events, rest.events);
    } else {
      TerminatedAfterQuiet(prefix + loop.events, Closing(tab, loop.outcome));
    }
  }

  /** A loop that cannot raise ends its run with an error only when the
      ending does. */
  lemma ErrorOnlyFromEnding(prefix: seq<Event>, tab: Tab, loop: LoopEnd, rest: Run)
    requires Quiet(prefix) && Quiet(loop.events) && Terminated(rest.events)
    requires !loop.outcome.Failed?
    ensures var r := AfterLoop(prefix, tab, loop, rest);
            |r.events| > 0 && (r.events[|r.events| - 1].Error? ==> rest.events[|rest.events| - 1].Error?)
  {
    QuietConcat(prefix, loop.events);
    if loop.outcome.Finished? {
      TerminatedAfterQuiet(prefix + loop.events, rest.events);
    } else {
      TerminatedAfterQuiet(prefix + loop.events, Closing(tab, loop.outcome));
    }
  }

  // ---------------------------------------------------------------------
  // The three ways a task loop can end, at the level of the whole run
  // ---------------------------------------------------------------------

  /** The run closes with the given line and `done`. */
  predicate EndsSaying(events: seq<Event>, tab: Tab, m: Message) {
    |events| >= 2 && events[|events| - 2..] == [Log(tab, m), Done]
  }

  /** The last line the run logs is m. */
  predicate LastLine(events: seq<Event>, m: Message) {
    |Lines(events)| > 0 && Lines(events)[|Lines(events)| - 1] == m
  }

  /** The run closes with the stop line and `done`. */
  predicate EndsStopped(events: seq<Event>, tab: Tab) {
    EndsSaying(events, tab, StoppedByUser)
  }

  /** Stopped before unit k: exactly k progress messages from the loop,
      then the stop line and `done`, and no file. */
  lemma StoppedRun(prefix: seq<Event>, tab: Tab, band: Band, units: seq<Unit>, k: nat, rest: Run)
    requires k < |units|
    requires forall j :: 0 <= j < k ==> units[j].Worked?
    ensures var r := AfterLoop(prefix, tab, Loop(tab, band, units, SetBefore(k), 0), rest);
            && r.output.None?
            && |Percents(r.events)| == |Percents(prefix)| + k
            && EndsStopped(r.events, tab)
  {
    var loop := Loop(tab, band, units, SetBefore(k), 0);
    LoopStopsAt(tab, band, units, k);
    var closing := Closing(tab, Stopped);
    PercentsConcat(prefix, loop.events);
    PercentsConcat(prefix + loop.events, closing);
  }

  /** Raised at unit k before the flag was seen: k progress messages from
      the loop, then the one `error`, and no file. */
  lemma FailedRun(prefix: seq<Event>, tab: Tab, band: Band, units: seq<Unit>, stop: Stop, k: nat, rest: Run)
    requires k < |units| && units[k].Raised? && !stop.SeenAt(k)
    requires forall j :: 0 <= j < k ==> units[j].Worked?
    ensures var r := AfterLoop(prefix, tab, Loop(tab, band, units, stop, 0), rest);
            && r.output.None?
            && |Percents(r.events)| == |Percents(prefix)| + k
            && r.events[|r.events| - 1] == Error(units[k].message)
  {
    var loop := Loop(tab, band, units, stop, 0);
    LoopFailsAt(tab, band, units, stop, k);
    var closing := Closing(tab, loop.outcome);
    assert Percents(closing) == [] by { assert closing[1..] == []; }
    PercentsConcat(prefix, loop.events);
    PercentsConcat(prefix + loop.events, closing);
  }

  /** Not stopped and nothing raised: every unit reports once, in band
      order, and the task's ending follows. */
  lemma FinishedRun(prefix: seq<Event>, tab: Tab, band: Band, units: seq<Unit>, stop: Stop, rest: Run)
    requires forall j :: 0 <= j < |units| ==> units[j].Worked?
    requires !stop.SeenAt(|units| - 1)
    ensures var r := AfterLoop(prefix, tab, Loop(tab, band, units, stop, 0), rest);
            && r.output == rest.output
            && Percents(r.events) == Percents(prefix) + Ramp(band, |units|) + Percents(rest.events)
            && (Percents(prefix) == [] && Percents(rest.events) == [] ==> Percents(r.events) == Ramp(band, |units|))
  {
    var loop := Loop(tab, band, units, stop, 0);
    LoopCompletes(tab, band, units, stop);
    PercentsConcat(prefix, loop.events);
    PercentsConcat(prefix + loop.events, rest.events);
    var ramp := Ramp(band, |units|);
    assert [] + ramp + [] == ramp;
  }

  /** ...and posts the prefix's log lines, every unit's, then the
      ending's. */
  lemma FinishedRunLines(prefix: seq<Event>, tab: Tab, band: Band, units: seq<Unit>, stop: Stop, rest: Run)
    requires forall j :: 0 <= j < |units| ==> units[j].Worked?
    requires !stop.SeenAt(|units| - 1)
    ensures var r := AfterLoop(prefix, tab, Loop(tab, band, units, stop, 0), rest);
            Lines(r.events) == Lines(prefix) + UnitLines(units, 0, |units|) + Lines(rest.events)
  {
    var loop := Loop(tab, band, units, stop, 0);
    LoopCompletes(tab, band, units, stop);
    LoopLinesComplete(tab, band, units, stop);
    LinesConcat(prefix, loop.events);
    LinesConcat(prefix + loop.events, rest.events);
  }

  /** A finished loop followed by an ending that only says m and `done`
      closes the run with that line: it is the last log line too. */
  lemma FinishedRunSays(prefix: seq<Event>, tab: Tab, band: Band, units: seq<Unit>, stop: Stop, rest: Run, m: Message)
    requires forall j :: 0 <= j < |units| ==> units[j].Worked?
    requires !stop.SeenAt(|units| - 1)
    requires rest.events == [Log(tab, m), Done]
    ensures var r := AfterLoop(prefix, tab, Loop(tab, band, units, stop, 0), rest);
            && EndsSaying(r.events, tab, m)
            && LastLine(r.events, m)
  {
    var loop := Loop(tab, band, units, stop, 0);
    LoopCompletes(tab, band, units, stop);
    var events := prefix + loop.events + rest.events;
    assert events[|events| - 2..] == rest.events;
    FinishedRunLines(prefix, tab, band, units, stop, rest);
    assert Lines(rest.events) == [m] by {
      assert rest.events[1..] == [Done] && [Done][1..] == [];
    }
  }
}

=== FILE: search.dfy ===
/** `_task_search_and_extract`: copy the pages of a PDF that contain the
    search terms into a new PDF, in document order. */
module Search {
  import opened Base
  import opened Text
  import opened Paths
  import opened Ranges
  import opened Events
  import opened Documents
  import opened Runs

  /** How text is compared: as it is when the search is case sensitive,
      lower-cased otherwise (terms and page text alike). */
  function Fold(s: string, caseSensitive: bool): string {
    if caseSensitive then s else Lower(s)
  }

  /** The page test: with require_all every term must occur in the page
      text, otherwise one is enough. */
  predicate Matches(text: string, terms: seq<string>, caseSensitive: bool, requireAll: bool) {
    var t := Fold(text, caseSensitive);
    if requireAll then forall i :: 0 <= i < |terms| ==> Contains(t, Fold(terms[i], caseSensitive))
    else exists i :: 0 <= i < |terms| && Contains(t, Fold(terms[i], caseSensitive))
  }

  /** The page at this position is loaded and passes the test. */
  predicate Hit(page: SourcePage, terms: seq<string>, caseSensitive: bool, requireAll: bool) {
    page.Readable? && Matches(page.page.text, terms, caseSensitive, requireAll)
  }

  /** The positions of the pages copied into the result, from i on. */
  function Hits(pages: seq<SourcePage>, terms: seq<string>, caseSensitive: bool, requireAll: bool, i: nat): (r: seq<int>)
    requires i <= |pages|
    ensures StrictlyIncreasing(r)
    ensures forall j :: 0 <= j < |r| ==> i <= r[j] < |pages|
    ensures forall k :: k in r <==> i <= k < |pages| && Hit(pages[k], terms, caseSensitive, requireAll)
    decreases |pages| - i
  {
    if i == |pages| then []
    else
      var rest := Hits(pages, terms, caseSensitive, requireAll, i + 1);
      if Hit(pages[i], terms, caseSensitive, requireAll) then
        ConsIncreasing(i, rest);
        [i] + rest
      else rest
  }

  /** The pages of the result document, in document order. */
  function Kept(pages: seq<SourcePage>, terms: seq<string>, caseSensitive: bool, requireAll: bool): (r: seq<Page>)
    ensures var hits := Hits(pages, terms, caseSensitive, requireAll, 0);
            |r| == |hits| && forall j :: 0 <= j < |r| ==> r[j] == pages[hits[j]].page
  {
    var hits := Hits(pages, terms, caseSensitive, requireAll, 0);
    seq(|hits|, j requires 0 <= j < |hits| => pages[hits[j]].page)
  }

  /** One page of the loop: loading it may raise; a matching page is logged
      before its progress message. */
  function PageUnit(page: SourcePage, i: nat, terms: seq<string>, caseSensitive: bool, requireAll: bool): (u: Unit)
    ensures u.Raised? <==> page.Unreadable?
    ensures u.Worked? ==> u.after == []
    ensures u.Worked? ==> (u.before != [] <==> Hit(page, terms, caseSensitive, requireAll))
  {
    match page
    case Unreadable(m) => Raised(m)
    case Readable(p) =>
      if Matches(p.text, terms, caseSensitive, requireAll) then Worked([PageMatched(i + 1)], []) else Worked([], [])
  }

  function Units(pages: seq<SourcePage>, terms: seq<string>, caseSensitive: bool, requireAll: bool): (r: seq<Unit>)
    ensures |r| == |pages|
    ensures forall i :: 0 <= i < |r| ==> r[i] == PageUnit(pages[i], i, terms, caseSensitive, requireAll)
    ensures forall i :: 0 <= i < |r| ==> (r[i].Worked? <==> pages[i].Readable?)
  {
    seq(|pages|, i requires 0 <= i < |pages| => PageUnit(pages[i], i, terms, caseSensitive, requireAll))
  }

  /** The first message: which file the task works on. */
  function Opening(pdfPath: string): (r: seq<Event>)
    ensures Quiet(r) && Percents(r) == []
  {
    Note(SearchTab, SearchStarted(Basename(pdfPath)))
  }

  /** The result path: the input's stem with "_resultado.pdf", made
      unique in the result folder. */
  function OutPath(env: Env, pdfPath: string): string {
    OutputFor(env, pdfPath, "_resultado.pdf")
  }

  /** What follows a completed loop: save the kept pages when there are
      any, otherwise say that nothing matched. */
  function Ending(env: Env, pdfPath: string, kept: seq<Page>): (r: Run)
    ensures WellFormed(r)
    ensures Percents(r.events) == []
    ensures r.output.Some? <==> |kept| > 0 && env.saveError.None?
    ensures r.output.Some? ==> r.output.value == Output(OutPath(env, pdfPath), Pdf(kept))
    ensures |kept| == 0 ==> r.events == [Log(SearchTab, NoMatches), Done]
  {
    if |kept| > 0 then Save(env, SearchTab, OutPath(env, pdfPath), Pdf(kept), [])
    else Conclude([], SearchTab, NoMatches)
  }

  /** The whole task. */
  function Search(env: Env, pdfPath: string, source: Source, terms: seq<string>, caseSensitive: bool, requireAll: bool): (r: Run)
    ensures WellFormed(r)
    ensures r.output.Some? ==> source.Opened? && r.output.value.path !in env.existing
    ensures source.Unopenable? ==> r.events == Opening(pdfPath) + [Error(source.message)]
  {
    match source
    case Unopenable(m) => Raise(Opening(pdfPath), m)
    case Opened(pages) =>
      var loop := Loop(SearchTab, Whole, Units(pages, terms, caseSensitive, requireAll), env.stop, 0);
      var ending := Ending(env, pdfPath, Kept(pages, terms, caseSensitive, requireAll));
      AfterLoopWellFormed(Opening(pdfPath), SearchTab, loop, ending);
      AfterLoop(Opening(pdfPath), SearchTab, loop, ending)
  }

  /** The task once the file is open: the loop over its pages, then the
      ending. */
  lemma SearchUnfolds(env: Env, pdfPath: string, pages: seq<SourcePage>, terms: seq<string>, caseSensitive: bool, requireAll: bool)
    ensures Search(env, pdfPath, Opened(pages), terms, caseSensitive, requireAll)
            == AfterLoop(Opening(pdfPath), SearchTab, Loop(SearchTab, Whole, Units(pages, terms, caseSensitive, requireAll), env.stop, 0),
                         Ending(env, pdfPath, Kept(pages, terms, caseSensitive, requireAll)))
  {
  }

  /** The result has pages exactly when some page matches. */
  lemma KeptNonEmpty(pages: seq<SourcePage>, terms: seq<string>, caseSensitive: bool, requireAll: bool)
    requires forall i :: 0 <= i < |pages| ==> pages[i].Readable?
    ensures |Kept(pages, terms, caseSensitive, requireAll)| > 0
            <==> exists i :: 0 <= i < |pages| && Matches(pages[i].page.text, terms, caseSensitive, requireAll)
  {
    var hits := Hits(pages, terms, caseSensitive, requireAll, 0);
    if exists i :: 0 <= i < |pages| && Matches(pages[i].page.text, terms, caseSensitive, requireAll) {
      var i :| 0 <= i < |pages| && Matches(pages[i].page.text, terms, caseSensitive, requireAll);
      assert i in hits;
    }
    if |hits| > 0 {
      assert hits[0] in hits;
    }
  }

  /** A search that runs to the end reports every page once, 0..100 in
      order, and then does what its ending does. */
  lemma SearchCompletes(env: Env, pdfPath: string, pages: seq<SourcePage>, terms: seq<string>, caseSensitive: bool, requireAll: bool)
    requires forall i :: 0 <= i < |pages| ==> pages[i].Readable?
    requires !env.stop.SeenAt(|pages| - 1)
    ensures var r := Search(env, pdfPath, Opened(pages), terms, caseSensitive, requireAll);
            && Percents(r.events) == Ramp(Whole, |pages|)
            && r.output == Ending(env, pdfPath, Kept(pages, terms, caseSensitive, requireAll)).output
  {
    var units := Units(pages, terms, caseSensitive, requireAll);
    var ending := Ending(env, pdfPath, Kept(pages, terms, caseSensitive, requireAll));
    SearchUnfolds(env, pdfPath, pages, terms, caseSensitive, requireAll);
    FinishedRun(Opening(pdfPath), SearchTab, Whole, units, env.stop, ending);
  }

  /** A search that runs to the end writes a file exactly when some page
      matched (and saving works); the file holds the matching pages in
      document order. */
  lemma SearchSavesMatches(env: Env, pdfPath: string, pages: seq<SourcePage>, terms: seq<string>, caseSensitive: bool, requireAll: bool)
    requires forall i :: 0 <= i < |pages| ==> pages[i].Readable?
    requires !env.stop.SeenAt(|pages| - 1)
    ensures var r := Search(env, pdfPath, Opened(pages), terms, caseSensitive, requireAll);
            && (r.output.Some? <==> env.saveError.None? && exists i :: 0 <= i < |pages| && Matches(pages[i].page.text, terms, caseSensitive, requireAll))
            && (r.output.Some? ==> r.output.value.artifact == Pdf(Kept(pages, terms, caseSensitive, requireAll)))
  {
    SearchCompletes(env, pdfPath, pages, terms, caseSensitive, requireAll);
    KeptNonEmpty(pages, terms, caseSensitive, requireAll);
  }

  /** A search that runs to the end with no matching page writes nothing
      and closes with the no-match line and `done`. */
  lemma SearchFindsNothing(env: Env, pdfPath: string, pages: seq<SourcePage>, terms: seq<string>, caseSensitive: bool, requireAll: bool)
    requires forall i :: 0 <= i < |pages| ==> pages[i].Readable?
    requires !env.stop.SeenAt(|pages| - 1)
    requires forall i :: 0 <= i < |pages| ==> !Matches(pages[i].page.text, terms, caseSensitive, requireAll)
    ensures var r := Search(env, pdfPath, Opened(pages), terms, caseSensitive, requireAll);
            && r.output.None?
            && EndsSaying(r.events, SearchTab, NoMatches)
            && LastLine(r.events, NoMatches)
  {
    var units := Units(pages, terms, caseSensitive, requireAll);
    var ending := Ending(env, pdfPath, Kept(pages, terms, caseSensitive, requireAll));
    KeptNonEmpty(pages, terms, caseSensitive, requireAll);
    assert ending.events == [Log(SearchTab, NoMatches), Done];
    assert forall j :: 0 <= j < |units| ==> units[j].Worked?;
    SearchUnfolds(env, pdfPath, pages, terms, caseSensitive, requireAll);
    FinishedRunSays(Opening(pdfPath), SearchTab, Whole, units, env.stop, ending, NoMatches);
  }

  /** The line logged for each matching page, with its 1-based number. */
  function MatchedLines(hits: seq<int>): (r: seq<Message>)
    ensures |r| == |hits|
    ensures forall j :: 0 <= j < |r| ==> r[j] == PageMatched(hits[j] + 1)
  {
    seq(|hits|, j requires 0 <= j < |hits| => PageMatched(hits[j] + 1))
  }

  lemma MatchedLinesCons(h: int, rest: seq<int>)
    ensures MatchedLines([h] + rest) == [PageMatched(h + 1)] + MatchedLines(rest)
  {
    var l := MatchedLines([h] + rest);
    var r := [PageMatched(h + 1)] + MatchedLines(rest);
    assert forall j :: 0 < j < |l| ==> l[j] == MatchedLines(rest)[j - 1] == r[j];
  }

  /** With every page loaded, the pages from i on log one line per
      matching page, in document order. */
  lemma {:induction false} UnitLinesAreMatches(pages: seq<SourcePage>, terms: seq<string>, caseSensitive: bool, requireAll: bool, i: nat)
    requires i <= |pages|
    requires forall k :: 0 <= k < |pages| ==> pages[k].Readable?
    ensures UnitLines(Units(pages, terms, caseSensitive, requireAll), i, |pages|)
            == MatchedLines(Hits(pages, terms, caseSensitive, requireAll, i))
    decreases |pages| - i
  {
    if i < |pages| {
      var next := i + 1;
      UnitLinesAreMatches(pages, terms, caseSensitive, requireAll, next);
      MatchStep(pages, terms, caseSensitive, requireAll, i, next);
    }
  }

  lemma MatchStep(pages: seq<SourcePage>, terms: seq<string>, caseSensitive: bool, requireAll: bool, i: nat, next: nat)
    requires i < |pages| && next == i + 1 && pages[i].Readable?
    requires UnitLines(Units(pages, terms, caseSensitive, requireAll), next, |pages|)
             == MatchedLines(Hits(pages, terms, caseSensitive, requireAll, next))
    ensures UnitLines(Units(pages, terms, caseSensitive, requireAll), i, |pages|)
            == MatchedLines(Hits(pages, terms, caseSensitive, requireAll, i))
  {
    var units := Units(pages, terms, caseSensitive, requireAll);
    var mine := if Hit(pages[i], terms, caseSensitive, requireAll) then [i] else [];
    var rest := Hits(pages, terms, caseSensitive, requireAll, next);
    HitsStep(pages, terms, caseSensitive, requireAll, i, next);
    PageUnitLines(pages[i], i, terms, caseSensitive, requireAll);
    LinesStep(units, i, next, MatchedLines(mine), MatchedLines(rest));
    MatchedLinesConcat(mine, rest);
  }

  /** The hits from i on: i itself when page i matches, then the rest. */
  lemma HitsStep(pages: seq<SourcePage>, terms: seq<string>, caseSensitive: bool, requireAll: bool, i: nat, next: nat)
    requires i < |pages| && next == i + 1
    ensures Hits(pages, terms, caseSensitive, requireAll, i)
            == (if Hit(pages[i], terms, caseSensitive, requireAll) then [i] else []) + Hits(pages, terms, caseSensitive, requireAll, next)
  {
  }

  /** A loaded page logs its match line exactly when it matches. */
  lemma PageUnitLines(page: SourcePage, i: nat, terms: seq<string>, caseSensitive: bool, requireAll: bool)
    requires page.Readable?
    ensures var u := PageUnit(page, i, terms, caseSensitive, requireAll);
            u.Worked? && u.before + u.after == MatchedLines(if Hit(page, terms, caseSensitive, requireAll) then [i] else [])
  {
    if Hit(page, terms, caseSensitive, requireAll) {
      assert MatchedLines([i]) == [PageMatched(i + 1)];
    } else {
      assert MatchedLines([]) == [];
    }
  }

  /** One more unit in front adds its lines in front. */
  lemma LinesStep(units: seq<Unit>, i: nat, next: nat, mine: seq<Message>, rest: seq<Message>)
    requires i < |units| && next == i + 1 && units[i].Worked?
    requires units[i].before + units[i].after == mine
    requires UnitLines(units, next, |units|) == rest
    ensures UnitLines(units, i, |units|) == mine + rest
  {
  }

  lemma MatchedLinesConcat(mine: seq<int>, rest: seq<int>)
    requires |mine| <= 1
    ensures MatchedLines(mine + rest) == MatchedLines(mine) + MatchedLines(rest)
  {
    if |mine| == 1 {
      assert mine == [mine[0]];
      MatchedLinesCons(mine[0], rest);
    } else {
      assert mine + rest == rest;
    }
  }

  /** A search that runs to the end logs, in order: the opening line, one
      "match on page n" line per matching page in document order, then the
      "generated" line, or the no-match line when no page matched. */
  lemma SearchLogsMatches(env: Env, pdfPath: string, pages: seq<SourcePage>, terms: seq<string>, caseSensitive: bool, requireAll: bool)
    requires forall i :: 0 <= i < |pages| ==> pages[i].Readable?
    requires !env.stop.SeenAt(|pages| - 1) && env.saveError.None?
    ensures var hits := Hits(pages, terms, caseSensitive, requireAll, 0);
            Lines(Search(env, pdfPath, Opened(pages), terms, caseSensitive, requireAll).events)
            == [SearchStarted(Basename(pdfPath))] + MatchedLines(hits)
               + (if |hits| > 0 then [Generated(OutPath(env, pdfPath))] else [NoMatches])
  {
    var units := Units(pages, terms, caseSensitive, requireAll);
    var kept := Kept(pages, terms, caseSensitive, requireAll);
    var ending := Ending(env, pdfPath, kept);
    assert forall j :: 0 <= j < |units| ==> units[j].Worked?;
    SearchUnfolds(env, pdfPath, pages, terms, caseSensitive, requireAll);
    FinishedRunLines(Opening(pdfPath), SearchTab, Whole, units, env.stop, ending);
    UnitLinesAreMatches(pages, terms, caseSensitive, requireAll, 0);
    assert Lines(Opening(pdfPath)) == [SearchStarted(Basename(pdfPath))] by {
      assert Opening(pdfPath)[1..] == [];
    }
    EndingLines(env, pdfPath, kept);
  }

  /** The log lines of the ending: the "generated" line after a save, the
      no-match line otherwise. */
  lemma EndingLines(env: Env, pdfPath: string, kept: seq<Page>)
    requires env.saveError.None?
    ensures Lines(Ending(env, pdfPath, kept).events)
            == if |kept| > 0 then [Generated(OutPath(env, pdfPath))] else [NoMatches]
  {
    if |kept| > 0 {
      SaveLines(env, SearchTab, OutPath(env, pdfPath), Pdf(kept));
    } else {
      var events := [Log(SearchTab, NoMatches), Done];
      assert events[1..] == [Done] && [Done][1..] == [];
    }
  }

  /** A search stopped before page k (all earlier pages loaded) reports k
      pages, ends with the stop line and `done`, and writes nothing. */
  lemma SearchStops(env: Env, pdfPath: string, pages: seq<SourcePage>, terms: seq<string>, caseSensitive: bool, requireAll: bool, k: nat)
    requires env.stop == SetBefore(k) && k < |pages|
    requires forall i :: 0 <= i < k ==> pages[i].Readable?
    ensures var r := Search(env, pdfPath, Opened(pages), terms, caseSensitive, requireAll);
            && r.output.None?
            && |Percents(r.events)| == k
            && EndsStopped(r.events, SearchTab)
  {
    SearchUnfolds(env, pdfPath, pages, terms, caseSensitive, requireAll);
    StoppedRun(Opening(pdfPath), SearchTab, Whole, Units(pages, terms, caseSensitive, requireAll), k,
               Ending(env, pdfPath, Kept(pages, terms, caseSensitive, requireAll)));
  }

  /** A page that cannot be loaded ends the run with its exception after
      one progress message per earlier page, and nothing is written. */
  lemma SearchPageFails(env: Env, pdfPath: string, pages: seq<SourcePage>, terms: seq<string>, caseSensitive: bool, requireAll: bool, k: nat)
    requires k < |pages| && pages[k].Unreadable? && !env.stop.SeenAt(k)
    requires forall i :: 0 <= i < k ==> pages[i].Readable?
    ensures var r := Search(env, pdfPath, Opened(pages), terms, caseSensitive, requireAll);
            && r.output.None?
            && |Percents(r.events)| == k
            && r.events[|r.events| - 1] == Error(pages[k].message)
  {
    SearchUnfolds(env, pdfPath, pages, terms, caseSensitive, requireAll);
    FailedRun(Opening(pdfPath), SearchTab, Whole, Units(pages, terms, caseSensitive, requireAll), env.stop, k,
              Ending(env, pdfPath, Kept(pages, terms, caseSensitive, requireAll)));
  }

  /** Without case sensitivity the test ignores the case of the page: a
      page matches exactly when its lower-cased text does. */
  lemma CaseInsensitiveMatch(text: string, terms: seq<string>, requireAll: bool)
    ensures Matches(text, terms, false, requireAll) <==> Matches(Lower(text), terms, false, requireAll)
  {
    assert Lower(Lower(text)) == Lower(text);
  }

  /** Requiring all terms is stricter than requiring one, as long as there
      is a term. */
  lemma AllTermsImpliesAnyTerm(text: string, terms: seq<string>, caseSensitive: bool)
    requires |terms| > 0
    ensures Matches(text, terms, caseSensitive, true) ==> Matches(text, terms, caseSensitive, false)
  {
    if Matches(text, terms, caseSensitive, true) {
      assert Contains(Fold(text, caseSensitive), Fold(terms[0], caseSensitive));
    }
  }

  /** The compared page text holds the compared term at some index. */
  ghost predicate TermAt(text: string, term: string, caseSensitive: bool) {
    exists p :: OccursAt(Fold(text, caseSensitive), Fold(term, caseSensitive), p)
  }

  /** The scan behind one `term in text` test agrees with TermAt. */
  lemma TermTest(text: string, term: string, caseSensitive: bool)
    ensures Contains(Fold(text, caseSensitive), Fold(term, caseSensitive)) <==> TermAt(text, term, caseSensitive)
  {
    ContainsIff(Fold(text, caseSensitive), Fold(term, caseSensitive));
  }

  /** With require_all, a page matches when every term occurs at some index
      of the compared page text. */
  lemma AllTermsAtPositions(text: string, terms: seq<string>, caseSensitive: bool)
    ensures Matches(text, terms, caseSensitive, true) <==> forall i :: 0 <= i < |terms| ==> TermAt(text, terms[i], caseSensitive)
  {
    forall i | 0 <= i < |terms| {
      TermTest(text, terms[i], caseSensitive);
    }
  }

  /** Otherwise a page matches when some term occurs at some index of it. */
  lemma AnyTermAtPositions(text: string, terms: seq<string>, caseSensitive: bool)
    ensures Matches(text, terms, caseSensitive, false) <==> exists i :: 0 <= i < |terms| && TermAt(text, terms[i], caseSensitive)
  {
    forall i | 0 <= i < |terms| {
      TermTest(text, terms[i], caseSensitive);
    }
  }
}

=== FILE: text.dfy ===
/** String primitives the program borrows from Python's str and int:
    whitespace stripping, splitting on a separator, ASCII case folding,
    substring search, and the decimal conversions str(int) and int(str). */
module Text {
  import opened Base

  // ---------------------------------------------------------------------
  // Whitespace and stripping
  // ---------------------------------------------------------------------

  /** Python's str.isspace() for one character. */
  predicate IsSpace(c: char) {
    || c == ' '
    || ('\t' <= c <= '\r')
    || ('\U{1c}' <= c <= '\U{1f}')
    || c == '\U{85}' || c == '\U{a0}' || c == '\U{1680}'
    || ('\U{2000}' <= c <= '\U{200a}')
    || c == '\U{2028}' || c == '\U{2029}' || c == '\U{202f}'
    || c == '\U{205f}' || c == '\U{3000}'
  }

  /** Length of the longest all-whitespace prefix. */
  function LeadingSpace(s: string): (n: nat)
    ensures n <= |s|
    ensures forall i :: 0 <= i < n ==> IsSpace(s[i])
    ensures n < |s| ==> !IsSpace(s[n])
  {
    if |s| > 0 && IsSpace(s[0]) then 1 + LeadingSpace(s[1..]) else 0
  }

  /** Length of the longest all-whitespace suffix. */
  function TrailingSpace(s: string): (n: nat)
    ensures n <= |s|
    ensures forall i :: |s| - n <= i < |s| ==> IsSpace(s[i])
    ensures n < |s| ==> !IsSpace(s[|s| - n - 1])
  {
    if |s| > 0 && IsSpace(s[|s| - 1]) then 1 + TrailingSpace(s[..|s| - 1]) else 0
  }

  /** `r` is the slice of `s` at offset `a`, and everything of `s` outside
      that slice is whitespace. */
  predicate StrippedAt(s: string, r: string, a: int) {
    && 0 <= a <= |s| - |r|
    && r == s[a..a + |r|]
    && (forall i :: 0 <= i < a ==> IsSpace(s[i]))
    && (forall i :: a + |r| <= i < |s| ==> IsSpace(s[i]))
  }

  /** Python's str.strip() with no argument: the slice of `s` between its
      leading and its trailing whitespace. */
  function Strip(s: string): (r: string)
    ensures exists a :: StrippedAt(s, r, a)
    ensures |r| > 0 ==> !IsSpace(r[0]) && !IsSpace(r[|r| - 1])
  {
    var a := LeadingSpace(s);
    var t := s[a..];
    var n := TrailingSpace(t);
    CutBothEnds(s, a, t, n);
    t[..|t| - n]
  }

  /** Cutting the leading and then the trailing whitespace leaves a slice
      with whitespace only outside it and none at its ends. */
  lemma CutBothEnds(s: string, a: nat, t: string, n: nat)
    requires a <= |s| && t == s[a..] && n <= |t|
    requires forall i :: 0 <= i < a ==> IsSpace(s[i])
    requires a < |s| ==> !IsSpace(s[a])
    requires forall i :: |t| - n <= i < |t| ==> IsSpace(t[i])
    requires n < |t| ==> !IsSpace(t[|t| - n - 1])
    ensures var r := t[..|t| - n];
            && StrippedAt(s, r, a)
            && (|r| > 0 ==> !IsSpace(r[0]) && !IsSpace(r[|r| - 1]))
  {
    var r := t[..|t| - n];
    assert r == s[a..a + |r|];
    forall i | a + |r| <= i < |s|
      ensures IsSpace(s[i])
    {
      assert s[i] == t[i - a];
    }
    if |r| > 0 {
      assert r[0] == s[a];
      assert r[|r| - 1] == t[|t| - n - 1];
    }
  }

  /** A string with no whitespace at either end is left alone by Strip. */
  lemma StripUnchanged(s: string)
    requires |s| > 0 ==> !IsSpace(s[0]) && !IsSpace(s[|s| - 1])
    ensures Strip(s) == s
  {
  }

  // ---------------------------------------------------------------------
  // Searching and splitting
  // ---------------------------------------------------------------------

  /** Python's str.find for one character: the first index of `c`, or -1. */
  function IndexOf(s: string, c: char): (r: int)
    ensures -1 <= r < |s|
    ensures r == -1 <==> c !in s
    ensures 0 <= r ==> s[r] == c && c !in s[..r]
  {
    if |s| == 0 then -1
    else if s[0] == c then 0
    else
      var k := IndexOf(s[1..], c);
      assert s == [s[0]] + s[1..];
      if k < 0 then -1
      else
        assert s[..k + 1] == [s[0]] + s[1..][..k];
        k + 1
  }

  /** Python's str.rfind for one character: the last index of `c`, or -1. */
  function LastIndexOf(s: string, c: char): (r: int)
    ensures -1 <= r < |s|
    ensures r == -1 <==> c !in s
    ensures 0 <= r ==> s[r] == c && c !in s[r + 1..]
  {
    if |s| == 0 then -1
    else if s[|s| - 1] == c then |s| - 1
    else
      var k := LastIndexOf(s[..|s| - 1], c);
      LastInFront(s, c, k);
      k
  }

  /** When the last character is not `c`, the last `c` of the whole string
      is the last `c` of the rest. */
  lemma LastInFront(s: string, c: char, k: int)
    requires |s| > 0 && s[|s| - 1] != c
    requires var p := s[..|s| - 1];
             && -1 <= k < |p| && (k == -1 <==> c !in p)
             && (0 <= k ==> p[k] == c && c !in p[k + 1..])
    ensures k == -1 <==> c !in s
    ensures 0 <= k ==> s[k] == c && c !in s[k + 1..]
  {
    var p := s[..|s| - 1];
    assert s == p + [s[|s| - 1]];
    if k >= 0 {
      assert s[k + 1..] == p[k + 1..] + [s[|s| - 1]];
    }
  }

  /** The last occurrence of `c` is at `i` when `s[i]` is `c` and nothing
      after it is. */
  lemma LastIndexOfAt(s: string, c: char, i: int)
    requires 0 <= i < |s| && s[i] == c
    requires forall j :: i < j < |s| ==> s[j] != c
    ensures LastIndexOf(s, c) == i
  {
    var r := LastIndexOf(s, c);
    assert forall j :: r < j < |s| ==> s[j] == s[r + 1..][j - r - 1];
  }

  /** In `a + [c] + b` with no `c` in `a`, the first `c` is the one
      between the two parts. */
  lemma FirstAfter(a: string, c: char, b: string)
    requires c !in a
    ensures var s := a + [c] + b;
            && c in s && IndexOf(s, c) == |a|
            && s[..|a|] == a && s[|a| + 1..] == b
  {
    var s := a + [c] + b;
    assert s[|a|] == c;
    assert s[..|a|] == a;
    assert s[|a| + 1..] == b;
    assert forall j :: 0 <= j < |a| ==> s[j] == a[j];
    IndexOfAt(s, c, |a|);
  }

  /** The first occurrence of `c` is at `i` when `s[i]` is `c` and nothing
      before it is. */
  lemma {:induction false} IndexOfAt(s: string, c: char, i: nat)
    requires i < |s| && s[i] == c
    requires forall j :: 0 <= j < i ==> s[j] != c
    ensures IndexOf(s, c) == i
    decreases i
  {
    if i > 0 {
      IndexOfAt(s[1..], c, i - 1);
    }
  }

  /** Glues the pieces back together with the separator between them. */
  function Join(parts: seq<string>, sep: char): string
  {
    if |parts| == 0 then ""
    else if |parts| == 1 then parts[0]
    else parts[0] + [sep] + Join(parts[1..], sep)
  }

  /** Python's str.split(sep) for a one-character separator: the maximal
      separator-free pieces, in order, empty pieces included. */
  function Split(s: string, sep: char): (parts: seq<string>)
    ensures |parts| >= 1
    ensures forall i :: 0 <= i < |parts| ==> sep !in parts[i]
    ensures Join(parts, sep) == s
    decreases |s|
  {
    var i := IndexOf(s, sep);
    if i < 0 then [s]
    else
      var rest := Split(s[i + 1..], sep);
      assert s == s[..i] + [sep] + s[i + 1..];
      [s[..i]] + rest
  }

  /** Splitting undoes joining, as long as no piece holds the separator. */
  lemma {:induction false} SplitJoin(parts: seq<string>, sep: char)
    requires |parts| >= 1
    requires forall i :: 0 <= i < |parts| ==> sep !in parts[i]
    ensures Split(Join(parts, sep), sep) == parts
    decreases |parts|
  {
    if |parts| == 1 {
      assert IndexOf(parts[0], sep) == -1;
    } else {
      var tail := Join(parts[1..], sep);
      assert Join(parts, sep) == parts[0] + [sep] + tail;
      FirstAfter(parts[0], sep, tail);
      SplitJoin(parts[1..], sep);
    }
  }

  /** Joining two lists of pieces puts one separator between the halves. */
  lemma {:induction false} JoinConcat(pa: seq<string>, pb: seq<string>, sep: char)
    requires |pa| >= 1 && |pb| >= 1
    ensures Join(pa + pb, sep) == Join(pa, sep) + [sep] + Join(pb, sep)
    decreases |pa|
  {
    if |pa| == 1 {
      assert (pa + pb)[1..] == pb;
    } else {
      assert (pa + pb)[1..] == pa[1..] + pb;
      JoinConcat(pa[1..], pb, sep);
    }
  }

  /** Python's s.endswith(suffix). */
  predicate EndsWith(s: string, suffix: string) {
    |suffix| <= |s| && s[|s| - |suffix|..] == suffix
  }

  /** `t` occurs in `s` starting at index `i`. */
  predicate OccursAt(s: string, t: string, i: int) {
    0 <= i && i + |t| <= |s| && s[i..i + |t|] == t
  }

  /** Python's `t in s` for strings, by a left-to-right scan. */
  predicate Contains(s: string, t: string)
    decreases |s|
  {
    |t| <= |s| && (s[..|t|] == t || Contains(s[1..], t))
  }

  /** The scan finds `t` exactly when it occurs at some position. */
  lemma {:induction false} ContainsIff(s: string, t: string)
    ensures Contains(s, t) <==> exists i :: OccursAt(s, t, i)
    decreases |s|
  {
    if |t| <= |s| {
      if s[..|t|] == t {
        assert OccursAt(s, t, 0);
      } else {
        ContainsIff(s[1..], t);
        if Contains(s[1..], t) {
          var i :| OccursAt(s[1..], t, i);
          assert s[1..][i..i + |t|] == s[i + 1..i + 1 + |t|];
          assert OccursAt(s, t, i + 1);
        }
        if exists i :: OccursAt(s, t, i) {
          var i :| OccursAt(s, t, i);
          assert i != 0;
          assert s[1..][i - 1..i - 1 + |t|] == s[i..i + |t|];
          assert OccursAt(s[1..], t, i - 1);
        }
      }
    }
  }

  // ---------------------------------------------------------------------
  // Lines
  // ---------------------------------------------------------------------

  /** The characters str.splitlines() breaks at. */
  predicate IsLineBreak(c: char) {
    c == '\n' || c == '\r' || c == '\U{b}' || c == '\U{c}' || c == '\U{1c}' || c == '\U{1d}' || c == '\U{1e}'
    || c == '\U{85}' || c == '\U{2028}' || c == '\U{2029}'
  }

  /** A string with no line break in it. */
  predicate NoBreak(s: string) {
    forall j :: 0 <= j < |s| ==> !IsLineBreak(s[j])
  }

  /** The index of the first line break of s, or |s|. */
  function BreakAt(s: string): (k: nat)
    ensures k <= |s|
    ensures NoBreak(s[..k])
    ensures k < |s| ==> IsLineBreak(s[k])
  {
    if |s| == 0 || IsLineBreak(s[0]) then 0
    else
      var k := 1 + BreakAt(s[1..]);
      assert s[..k] == [s[0]] + s[1..][..k - 1];
      k
  }

  /** How many characters the line break starting s takes: "\r\n" is one
      break. */
  function BreakLength(s: string): nat
    requires |s| > 0
  {
    if s[0] == '\r' && |s| > 1 && s[1] == '\n' then 2 else 1
  }

  /** Python's str.splitlines(): the lines of s without their breaks; a
      final break does not start another line. */
  function SplitLines(s: string): (lines: seq<string>)
    ensures forall i :: 0 <= i < |lines| ==> NoBreak(lines[i])
    ensures |lines| == 0 <==> |s| == 0
    decreases |s|
  {
    if |s| == 0 then []
    else
      var k := BreakAt(s);
      if k == |s| then
        assert s[..k] == s;
        [s]
      else [s[..k]] + SplitLines(s[k + BreakLength(s[k..])..])
  }

  /** The first line of a text is everything before its first break; the
      break ("\r\n" or a single break character) is dropped. */
  lemma SplitFirstLine(a: string, brk: string, b: string)
    requires NoBreak(a)
    requires brk == "\r\n" || (|brk| == 1 && IsLineBreak(brk[0]) && !(brk[0] == '\r' && |b| > 0 && b[0] == '\n'))
    ensures SplitLines(a + brk + b) == [a] + SplitLines(b)
  {
    var s := a + brk + b;
    BreakAtPrefix(a, brk + b);
    assert s == a + (brk + b);
    assert s[|a|..] == brk + b;
    assert s[..|a|] == a;
    assert s[|a| + |brk|..] == b;
  }

  /** The first break of a + t, when a has none and t starts with one, is
      at |a|. */
  lemma {:induction false} BreakAtPrefix(a: string, t: string)
    requires NoBreak(a)
    requires |t| > 0 && IsLineBreak(t[0])
    ensures BreakAt(a + t) == |a|
    decreases |a|
  {
    if |a| > 0 {
      assert (a + t)[1..] == a[1..] + t;
      BreakAtPrefix(a[1..], t);
    }
  }

  /** Lines each followed by "\n". */
  function EndLines(lines: seq<string>): string {
    if |lines| == 0 then [] else lines[0] + "\n" + EndLines(lines[1..])
  }

  /** Splitting lines written one per "\n" gives them back. */
  lemma {:induction false} SplitLinesRoundTrip(lines: seq<string>)
    requires forall i :: 0 <= i < |lines| ==> NoBreak(lines[i])
    ensures SplitLines(EndLines(lines)) == lines
    decreases |lines|
  {
    if |lines| > 0 {
      SplitLinesRoundTrip(lines[1..]);
      SplitFirstLine(lines[0], "\n", EndLines(lines[1..]));
    }
  }

  // ---------------------------------------------------------------------
  // Case folding
  // ---------------------------------------------------------------------

  /** str.lower() restricted to ASCII letters. */
  function LowerChar(c: char): char {
    if 'A' <= c <= 'Z' then (c as int + 32) as char else c
  }

  function Lower(s: string): string {
    seq(|s|, i requires 0 <= i < |s| => LowerChar(s[i]))
  }

  // ---------------------------------------------------------------------
  // Decimal numerals: str(n) and int(s)
  // ---------------------------------------------------------------------

  predicate IsDigit(c: char) {
    '0' <= c <= '9'
  }

  predicate AllDigits(s: string) {
    forall i :: 0 <= i < |s| ==> IsDigit(s[i])
  }

  function DigitChar(d: nat): char
    requires d < 10
  {
    ('0' as int + d) as char
  }

  function DigitValue(c: char): nat
    requires IsDigit(c)
  {
    c as int - '0' as int
  }

  /** Value of a string of ASCII digits, most significant first. */
  function DigitsValue(s: string): nat
    requires AllDigits(s)
  {
    if |s| == 0 then 0
    else DigitsValue(s[..|s| - 1]) * 10 + DigitValue(s[|s| - 1])
  }

  /** str(n) for a non-negative integer: the canonical decimal numeral. */
  function NatToString(n: nat): (s: string)
    ensures |s| >= 1 && AllDigits(s)
    ensures |s| > 1 ==> s[0] != '0'
  {
    if n < 10 then [DigitChar(n)]
    else NatToString(n / 10) + [DigitChar(n % 10)]
  }

  /** Reading the numeral back gives the number. */
  lemma {:induction false} NatToStringRoundTrip(n: nat)
    ensures DigitsValue(NatToString(n)) == n
  {
    if n >= 10 {
      var s := NatToString(n);
      assert s[..|s| - 1] == NatToString(n / 10);
      NatToStringRoundTrip(n / 10);
    }
  }

  /** Distinct numbers have distinct numerals. */
  lemma NatToStringInjective(a: nat, b: nat)
    requires NatToString(a) == NatToString(b)
    ensures a == b
  {
    NatToStringRoundTrip(a);
    NatToStringRoundTrip(b);
  }

  /** str(i) for any integer. */
  function IntToString(i: int): string {
    if i < 0 then "-" + NatToString(-i) else NatToString(i)
  }

  /** Python's integer literal body: ASCII digits, where a single underscore
      may stand between two digits. */
  predicate IsDecimalLiteral(b: string) {
    && |b| >= 1
    && IsDigit(b[0])
    && IsDigit(b[|b| - 1])
    && (forall i :: 0 <= i < |b| ==> IsDigit(b[i]) || b[i] == '_')
    && (forall i :: 0 <= i < |b| - 1 && b[i] == '_' ==> b[i + 1] != '_')
  }

  function DropUnderscores(b: string): (r: string)
    requires forall i :: 0 <= i < |b| ==> IsDigit(b[i]) || b[i] == '_'
    ensures AllDigits(r)
  {
    if |b| == 0 then ""
    else if b[0] == '_' then DropUnderscores(b[1..])
    else [b[0]] + DropUnderscores(b[1..])
  }

  lemma DropUnderscoresOfDigits(b: string)
    requires AllDigits(b)
    ensures DropUnderscores(b) == b
  {
  }

  /** The information separators U+001C..U+001F. str.isspace() counts
      them as whitespace, but int() does not skip them: below U+007F it
      skips only " \t\n\v\f\r". */
  predicate IsSeparator(c: char) {
    '\U{1c}' <= c <= '\U{1f}'
  }

  /** Some character of `s` is an information separator. */
  predicate HasSeparator(s: string) {
    |s| > 0 && (IsSeparator(s[0]) || HasSeparator(s[1..]))
  }

  /** HasSeparator holds exactly when some position holds a separator. */
  lemma {:induction false} HasSeparatorAt(s: string)
    ensures HasSeparator(s) <==> exists i :: 0 <= i < |s| && IsSeparator(s[i])
  {
    if |s| > 0 {
      HasSeparatorAt(s[1..]);
      if HasSeparator(s[1..]) {
        var i :| 0 <= i < |s| - 1 && IsSeparator(s[1..][i]);
        assert IsSeparator(s[i + 1]);
      }
      if !IsSeparator(s[0]) && exists i :: 0 <= i < |s| && IsSeparator(s[i]) {
        var i :| 0 <= i < |s| && IsSeparator(s[i]);
        assert IsSeparator(s[1..][i - 1]);
      }
    }
  }

  /** Python's int(s) on a str: surrounding whitespace is ignored, one
      optional sign, then a decimal literal; anything else is a ValueError,
      modelled as None. An information separator anywhere is an error: int()
      does not strip it, and it is neither a digit, an underscore nor a
      sign. Without one, int()'s whitespace and str.isspace() agree. */
  function ParseInt(s: string): Option<int> {
    if HasSeparator(s) then None
    else
      var t := Strip(s);
      var negative := |t| > 0 && t[0] == '-';
      var body := if |t| > 0 && (t[0] == '-' || t[0] == '+') then t[1..] else t;
      if IsDecimalLiteral(body) then
        var v: int := DigitsValue(DropUnderscores(body));
        Some(if negative then -v else v)
      else None
  }

  /** int() rejects any string holding an information separator, even at
      either end, where str.strip() would have removed it. */
  lemma SeparatorRejected(s: string, i: nat)
    requires i < |s| && IsSeparator(s[i])
    ensures ParseInt(s) == None
  {
    HasSeparatorAt(s);
  }

  /** A canonical numeral is a literal Python's int() reads back. */
  lemma NumeralIsLiteral(n: nat)
    ensures IsDecimalLiteral(NatToString(n))
    ensures DigitsValue(DropUnderscores(NatToString(n))) == n
  {
    var d := NatToString(n);
    assert forall i :: 0 <= i < |d| ==> d[i] != '_';
    DropUnderscoresOfDigits(d);
    NatToStringRoundTrip(n);
  }

  /** str(i) is a sign and digits, so it holds no information separator. */
  lemma NumeralHasNoSeparator(i: int)
    ensures !HasSeparator(IntToString(i))
  {
    var s := IntToString(i);
    var d := NatToString(if i < 0 then -i else i);
    assert forall j :: 0 <= j < |d| ==> IsDigit(d[j]);
    assert forall j :: 0 <= j < |s| ==> s[j] == '-' || IsDigit(s[j]) by {
      if i < 0 {
        assert forall j :: 1 <= j < |s| ==> s[j] == d[j - 1];
      }
    }
    HasSeparatorAt(s);
  }

  /** int(str(i)) == i. */
  lemma ParseIntRoundTrip(i: int)
    ensures ParseInt(IntToString(i)) == Some(i)
  {
    var s := IntToString(i);
    var n: nat := if i < 0 then -i else i;
    var d := NatToString(n);
    NumeralIsLiteral(n);
    assert IsDigit(d[|d| - 1]);
    assert !IsSpace(s[|s| - 1]) by { assert s[|s| - 1] == d[|d| - 1]; }
    assert !IsSpace(s[0]) by { assert s[0] == '-' || IsDigit(s[0]); }
    StripUnchanged(s);
    NumeralHasNoSeparator(i);
    if i < 0 {
      assert s[1..] == d;
    }
  }
}
